=== FILE: README.md ===
# YouTube finder (100M views): a Dafny model of the search core

This project models the server side of a small YouTube search tool. The tool
finds videos with very high view counts. It has four parts:

- **The search aggregator.** This is `searchVideos`, written out twice: once
  in `server.js` and once, almost verbatim, in `api/index.js`. It works in
  these steps:
  - It refuses to start once 9000 upstream calls have been counted today.
  - It pages through the upstream "search" endpoint, 50 ids per page. It
    makes at most `max(1, ceil(maxResults / 50))` calls: the do-while loop
    always makes the first one. It stops early when it has enough ids or
    when there is no next page.
  - It keeps the first `maxResults` ids.
  - It fetches the details of those ids in batches of at most 50.
  - It keeps the videos with at least `minViewCount` views.
  - It sorts them by view count, stable and largest first.
  - It computes the top video and the rounded average view count.
  - It tags a 403 whose API message mentions quota as quota exhaustion.
  - It logs the search, and it counts every completed upstream call.
- **The usage counter** (`api/apiStats.js`). It stores the total and today's
  number of upstream calls and the last 100 call records. The daily count
  rolls over lazily when the date changes.
- **The search history** (`searchHistory.js`, also in
  `api/searchHistory.js`). It stores past searches, newest first, at most
  100 of them. Records can be looked up by id or by case-insensitive query.
- **The request log** (`searchRequestLog.js`, also in
  `api/searchRequestLog.js`). It stores one entry per search, newest first,
  at most 500 entries. It supports filtered listing and aggregate
  statistics, including the ten most frequent queries.

The routes that do real work are modelled as well. The search route maps
errors to responses and skips saving history on the serverless platform.
The history list and the history replay are also modelled.

The model is made of pure functions over immutable values. Each JSON file
is an `Option` of its contents: `None` means the file is missing or cannot
be read, and reading it then gives the default value. These things become
parameters:

- the YouTube Data API, as an `Upstream` value holding two total functions
  that return `Result`s;
- the clock, as one `Clock` reading per request;
- the deployment's environment variables;
- the `toLowerCase` case mapping, as `fold`;
- the day a log timestamp falls on, as `dayOf`.

Modules, one per file:

- `Base`: `Option`/`Result`, JS truthiness and `||` defaults, `slice`,
  `find`, `filter`, `includes`, and sums.
- `Sorting`: a stable descending sort and its proof.
- `Videos`: the result records.
- `UsageCounter`, `SearchHistory`, `RequestLog`: the three stores.
- `Aggregator`: `searchVideos`.
- `Routes`: the HTTP layer.

Where the two copies of a file agree, the table cites one of them. The
serverless copies of the history store and the request log differ from the
root copies only in how they find their file path.

## Model

| member | source | states |
|---|---|---|
| Sorting.SortDesc | server.js:124 | the sorted results are a permutation of the input, of the same length, in non-increasing view-count order |
| Sorting.SortStable | server.js:124 | the sort is stable: for every view count, the videos with that count keep their relative upstream order |
| Sorting.HeadIsMaximal | server.js:133-137 | the first element of a descending sequence has the largest key, which is what makes `filteredVideos[0]` the top video |
| UsageCounter.ResetDailyCounterIfNeeded | api/apiStats.js:47-55 | the record is dated today afterwards; a changed date zeroes today's count; total and call records are untouched; a record already dated today is returned unchanged |
| UsageCounter.RecordApiRequest | api/apiStats.js:63-91 | total goes up by one, and today's count (after the rollover) goes up by one; the call record is appended, and the oldest is dropped once there are more than 100; the 100-record bound is preserved |
| UsageCounter.GetStats | api/apiStats.js:97-111 | the snapshot reports total, rolled-over today count and date, and the last min(20, n) call records; the remaining estimate is 10000 minus today's count, clamped at 0; the file afterwards holds the rolled-over record |
| UsageCounter.RecordCallsCounts | api/apiStats.js:63-91 | recording a sequence of calls raises total and today's count by exactly the number of calls and keeps the record window bounded |
| UsageCounter.RecordCallsWindow | api/apiStats.js:63-91 | recording a sequence of calls into a bounded file leaves as the record window the newest 100 of the old records followed by one record per call, stamped and in call order |
| UsageCounter.RolloverIdempotent | api/apiStats.js:47-55 | rolling over twice is rolling over once, and a rollover never raises today's count |
| UsageCounter.FreshCounter | api/apiStats.js:11-28 | a missing or unreadable file reads as zero usage dated today, with the whole 10000-unit quota left, and nothing is written |
| UsageCounter.GetStatsStable | api/apiStats.js:97-111 | reading the stats never changes the total or the call records, and reading again gives the same snapshot |
| SearchHistory.ReadSearchHistory | searchHistory.js:14-24 | a missing or unreadable file reads as the empty history, otherwise as its contents |
| SearchHistory.NewRecord | searchHistory.js:36-52 | the record carries the given id, query, timestamp and maxResults, the videos unchanged, and their number as the result count |
| SearchHistory.SaveSearchHistory | searchHistory.js:33-63 | the new record comes first, followed by the older records in order, cut to at most 100 in total |
| SearchHistory.GetSearchHistoryById | searchHistory.js:75-82 | the result is the first (newest) record with that id, and it is absent exactly when no record has that id |
| SearchHistory.GetSearchHistoryByQuery | searchHistory.js:90-97 | the result is the first record whose case-folded query equals the case-folded argument, and it is absent exactly when there is none |
| SearchHistory.GetRecentSearchHistory | searchHistory.js:105-113 | the result is the newest min(limit, n) records in order |
| SearchHistory.ClearSearchHistory | searchHistory.js:118-129 | after clearing, the history reads as empty |
| SearchHistory.SaveBounded | searchHistory.js:56-59 | the history never holds more than 100 records |
| SearchHistory.SaveThenGetById | searchHistory.js:33-82 | right after a save, looking up the new id returns the saved record with exactly the saved videos, even if an older record has the same id |
| SearchHistory.SaveThenGetByQuery | searchHistory.js:90-97 | right after a save, any query that folds to the same text finds the new record |
| SearchHistory.SaveKeepsOtherIds | searchHistory.js:54-59 | while the history is below its cap, a save does not change the lookup result for any other id |
| SearchHistory.RecentAfterSave | searchHistory.js:105-108 | after a save, the newest `limit` records are the new record followed by the newest `limit - 1` records from before |
| SearchHistory.ClearThenLookup | searchHistory.js:118-129 | after clearing, lookups by id or query find nothing and the recent list is empty |
| RequestLog.MagnitudeOf | searchRequestLog.js:74-83 | the threshold is described in 億 exactly when it is at least 100000000, in 萬 exactly when it is from 10000 up to that, and plainly below 10000 |
| RequestLog.BuildEntry | searchRequestLog.js:46-98 | total requests = search + video requests; hasResults exactly when the filtered count is positive; a missing or zero threshold is logged as 100000000, and its magnitude is classified; a missing or zero maxResults or requestedResults becomes 50, a missing query becomes empty, missing counters and a missing average become 0, and an empty source becomes "web"; top video and page tokens are kept, an empty history id becomes null; id and timestamp come from the clock |
| RequestLog.LogSearchRequest | searchRequestLog.js:100-105 | the new entry comes first, followed by the older entries in order, cut to at most 500 |
| RequestLog.ClearLog | searchRequestLog.js:185-195 | after clearing, the log reads as empty |
| RequestLog.GetLogs | searchRequestLog.js:121-133 | at most `limit` entries, all taken from the log; with a non-empty filter the result is the first `limit` entries, in log order, whose folded query contains the folded filter; without one it is the first `limit` entries |
| RequestLog.GetLogsComplete | searchRequestLog.js:126-132 | every matching entry is listed when no more than `limit` entries match |
| RequestLog.Bump | searchRequestLog.js:155-159 | the intended counting step (see Findings): counting one more query keeps every existing key in place, and adds the key with count 1 at the end exactly when it was not there |
| RequestLog.BumpCounts | searchRequestLog.js:155-159 | for the intended tally (see Findings): in a table without repeated keys, counting one more query raises that query's count by one and leaves every other count as it was |
| RequestLog.BumpQueries | searchRequestLog.js:155-159 | for the intended tally (see Findings): after counting a query, the keys are exactly the earlier keys plus that query |
| RequestLog.TallyCorrect | searchRequestLog.js:155-159 | the intended tally (see Findings) lists exactly the queries that occur, each once, with its number of occurrences |
| RequestLog.BumpObject | searchRequestLog.js:155-159 | the counting step as the code runs it on a plain object: "__proto__" leaves the object unchanged; otherwise every key stays in place, and a new key is added last with 1, or with text when it names an inherited Object.prototype method |
| RequestLog.BumpObjectValues | searchRequestLog.js:158 | with no key listed twice, a step adds one to the value under the query (text plus one stays text) and leaves every other value, and a step on "__proto__" changes nothing |
| RequestLog.BumpObjectKeys | searchRequestLog.js:158 | after a step the keys are the earlier keys plus the query, unless the query is "__proto__" |
| RequestLog.ObjectTallyAsWritten | searchRequestLog.js:155-159 | the code's object has as keys exactly the searched queries other than "__proto__", and every key naming an inherited method holds text instead of a count |
| RequestLog.ObjectTallyCounts | searchRequestLog.js:155-159 | in the code's object no key is listed twice, and every key that is neither "__proto__" nor an inherited method holds its true number of occurrences |
| RequestLog.InheritedKeysDiverge | searchRequestLog.js:155-159 | one search for "constructor" is counted 1 by the intended tally but holds text in the code's object; one search for "__proto__" is counted 1 by the intended tally but is no key of the code's object |
| RequestLog.GetStatistics | searchRequestLog.js:139-180 | the summary is the one of the stored entries (below) and the top queries are those of the intended tally of the stored entries (see Findings); in particular total searches = number of entries, today's searches = number of entries logged today, the request, raw and filtered totals and the pagination count are sums and counts over the entries |
| RequestLog.StatsSummary | searchRequestLog.js:139-178 | total searches = number of entries; today's searches = number of entries logged today; total requests, raw and filtered totals are the sums of those fields over all entries, and today's requests the sum over today's entries; pagination count = number of entries that paged; today's figures are at most the totals; the filter rate is the "0%" case exactly when no raw results were logged, otherwise filtered over raw |
| RequestLog.StatisticsOfEmpty | searchRequestLog.js:139-180 | a missing or unreadable log gives all-zero statistics, the "0%" rate and no top queries |
| RequestLog.TopQueriesCorrect | searchRequestLog.js:155-163 | for the intended tally (see Findings): at most ten queries, no query twice, counts non-increasing and equal to the true number of occurrences; any query left out occurs no more often than the tenth listed |
| RequestLog.LogThenStatistics | searchRequestLog.js:139-153 | logging one search (below the cap) adds one search and exactly that entry's requests, raw count and filtered count to the summary's totals, and one to the pagination count exactly when it paged |
| RequestLog.LogThenTodayStatistics | searchRequestLog.js:142-149 | logging one search (below the cap) adds one to the summary's searches of today and its requests to today's requests exactly when its timestamp falls on today, and leaves them as they were otherwise |
| RequestLog.LogThenStatisticsAtCap | searchRequestLog.js:99-153 | logging one search into a full log keeps the summary's search count at 500, and each total changes by the new entry's value minus the value of the evicted oldest entry |
| RequestLog.FilterRateAtMostAll | searchRequestLog.js:150-151 | if no entry's filtered count exceeds its raw count, the filtered total is at most the raw total |
| RequestLog.LogBounded | searchRequestLog.js:102-105 | the log never holds more than 500 entries |
| Aggregator.FetchPages | server.js:37-65 | the page loop issues at least one call and never more than max(1, ceil(maxResults / 50)); it ends with at least one page unless a call failed; one token is pushed per call after the first |
| Aggregator.FetchChained | server.js:37-59 | the pages are the chain the upstream hands out, starting without a token and following each page's continuation token; a failure is the upstream's answer to the next token in that chain |
| Aggregator.FetchTokensPushed | server.js:47-50 | the token pushed for each call after the first is the continuation token of the page before |
| Aggregator.FetchContinuesWhileOpen | server.js:61-65 | the loop does not stop while none of its exit conditions holds: every page but the last left all three false |
| Aggregator.FetchStopsWhenDone | server.js:61-65 | a loop that did not fail stopped because enough ids were collected, there was no next page, or the call budget was used up |
| Aggregator.Batches | server.js:94-95 | the batches concatenate back to the ids; there are ceil(n / 50) of them; each holds 1 to 50 ids, and all but the last hold exactly 50 |
| Aggregator.FetchDetails | server.js:94-106 | the loop completes every batch or stops at the first failing one and reports that call's error; the collected items are exactly the upstream's answers to the completed batches, concatenated in order |
| Aggregator.DetailsAtMostAsked | server.js:102-106 | if the upstream returns at most one item per id asked, the loop collects at most as many items as ids |
| Aggregator.ToResult | server.js:114-123 | a result keeps the id, title, channel title and publication time, reads a missing view or like count as 0, takes the high thumbnail if present and otherwise the default one, and links to the watch URL of the id |
| Aggregator.RefineCorrect | server.js:108-124 | the kept results are exactly the items with at least minViewCount views, sorted by view count, with ties in upstream order |
| Aggregator.RoundedMeanNearest | server.js:130-132 | the computed average is the integer nearest to sum / n, with halves rounded up as Math.round does |
| Aggregator.RoundedMeanBetween | server.js:129-132 | the rounded average stays between any bounds that all the values respect |
| Aggregator.SummaryCorrect | server.js:128-137 | the top video is absent exactly when there are no results, and otherwise has the largest view count; the average is 0 for no results and otherwise lies between the threshold and the top count |
| Aggregator.Tag | server.js:171-181 | an error is tagged as quota exhaustion exactly when its status is 403 and its API message contains "quota" or "exceeded"; status and messages pass through |
| Aggregator.SearchCallLog | server.js:52-53 | one usage record per received page, for the same query and 50 ids; the first is labelled "first" and each later one carries the token it sent |
| Aggregator.DetailStage | server.js:92-124 | one "videos" record per answered batch, each for 1 to 50 ids; on success there are ceil(n / 50) of them, together they ask about exactly the n kept ids, and the videos are the refined upstream answers to all batches; on failure the error is the upstream's answer to the first unanswered batch |
| Aggregator.SearchUpstream | server.js:29-170 | the reported raw count never exceeds maxResults, and the filtered count is the number of returned videos; no kept ids means no videos, no top video and no detail calls |
| Aggregator.UpstreamVideosRefined | server.js:67-126 | on success the raw count is the number of kept ids (the first maxResults collected), every batch of them was answered, and the videos are exactly the answered items with enough views, in ranked order |
| Aggregator.LogData | server.js:139-157 | the log request carries the search's query, maxResults (also as requestedResults), threshold, counters and page tokens; top video and average are passed only when ids were found (the early return for no ids passes neither); source defaults to "web" and an empty history id to null |
| Aggregator.SearchVideos | server.js:22-182 | at or above 9000 calls today, the search fails before any call, with the usage file only rolled over; otherwise it is the upstream part; the log changes only for a successful search that asked to be logged, by one entry at the front |
| Aggregator.PreflightBlocks | server.js:24-28 | a refused search issues and records no call, logs nothing, and reports a plain error without status or quota tag |
| Aggregator.UpstreamCallsShape | server.js:37-106 | the recorded calls are at most max(1, ceil(maxResults / 50)) "search" calls for the query, the first labelled "first", followed only by "videos" calls for 1 to 50 ids each |
| Aggregator.UpstreamCallsCounted | server.js:52-106 | on success the number of "search" calls is the reported searchRequests, all calls number searchRequests + videoRequests, and the "videos" calls ask about exactly rawCount ids |
| Aggregator.UpstreamCallTokens | server.js:47-53 | on success every "search" call after the first carries the page token that was pushed for it, in order |
| Aggregator.UpstreamOutcomeShape | server.js:62-170 | on success: 1 to max(1, ceil(maxResults / 50)) search requests; one page token fewer than search requests; pagination used exactly when there was more than one page; rawCount is min(maxResults, number of ids collected); ceil(rawCount / 50) video requests |
| Aggregator.UpstreamResultsRanked | server.js:108-137 | on success every video meets the threshold and comes from an answered item; every answered item with enough views is in the list; the list is in non-increasing view-count order; the top video is the first, most viewed one; the average lies between the threshold and the top count |
| Aggregator.UpstreamFilteredAtMostRaw | server.js:108-126 | if the upstream answers each detail call with at most one item per id, the filtered count never exceeds the raw count |
| Aggregator.UpstreamErrorTagged | server.js:171-181 | a failed search reports the tagged error of an actual failing upstream call, and is tagged as quota exhaustion exactly when it is a 403 mentioning "quota" or "exceeded" |
| Aggregator.SearchUsageAccounted | server.js:52-104 | every completed call is counted once: total and today's count rise by exactly the number of recorded calls; the call-record window stays bounded and becomes the newest 100 of the old records followed by one record per call, in call order |
| Aggregator.LoggedEntry | searchRequestLog.js:46-98 | the entry built from a search outcome carries that outcome's counters, page tokens, top video and source, and has results exactly when videos were found; its threshold and maxResults are the search's (the defaults when zero), its average is the outcome's when ids were found and 0 otherwise, and it keeps a non-empty history id |
| Aggregator.SearchLogged | server.js:139-157 | a logged search's entry reports its own query, threshold, maxResults, counters, page tokens, top video, average and history id, and its total request count equals the number of calls recorded in the usage file |
| Aggregator.SearchLogOrder | server.js:140-157 | a logged search adds its entry before the older ones, dropping the oldest at 500; a failed or unlogged search leaves the log as it was |
| Routes.ClassifyError | server.js:208-228 | the quota response is chosen exactly when the error is tagged, or is a 403 whose API message (else its own message) contains "quota" or "exceeded"; otherwise the status is kept (500 when absent) and the message is the API message, else the error's message, else "未知錯誤" |
| Routes.SearchRoute | api/index.js:184-203 | the answer is found exactly when the search succeeded, and then carries the search's videos, outcome and their number as total; a failure is answered with the classified error; usage and log are the search's; outside the serverless platform a successful search saves its query, videos and maxResults as a new history record, and otherwise the history is left as it was |
| Routes.HistoryList | api/index.js:255-267 | the total counts every stored record; the rows are the newest min(limit, n) records (default limit 50) without their videos, in order |
| Routes.HistoryReplay | api/index.js:278-303 | a usable id (non-empty and not "undefined") is looked up by id, and otherwise a non-empty query is looked up by folded query; in each case the answer is 404 exactly when the lookup finds nothing, and otherwise replays the first matching record; with neither the answer is 404; a replayed answer is a stored record's videos, count, query and timestamp |
| Routes.PreflightAnswers500 | api/index.js:204-233 | the pre-flight refusal is answered with status 500 and its own message, not with the quota response, and touches neither history nor log |
| Routes.UpstreamQuotaAnswers403 | server.js:171-220 | an upstream 403 whose API message mentions "quota" is tagged and answered with the quota response |
| Routes.UpstreamFailureKeepsStatus | server.js:223-227 | any other upstream failure with an API message is answered with its own status (500 when absent) and that message |
| Routes.SearchThenReplay | api/index.js:192-196 | after a successful search on the local server, replaying by the new id returns exactly the videos and total the search answered with, for the searched query and timestamp |
| Routes.SearchThenReplayByQuery | api/index.js:192-196 | after a successful search on the local server, replaying by any query that folds to the searched one returns the videos and total the search answered with |
| Routes.HistorySavedOnlyOnServer | api/index.js:193-196 | on the serverless platform the history file is left as it was; on the local server a successful search grows it by one record, up to the cap |
| Routes.HistoryListAfterSave | server.js:254-263 | after a save, the list's total is the grown count and its first row summarises the new record |

## Left out

- I/O: file reads and writes, JSON parsing, the file-path probing, and
  console output are not modelled. A file that cannot be read or parsed is
  `None`. A failing write is not modelled.
- HTTP: the express and serverless wiring, static files, the health route,
  and the frontend are not modelled.
- Pass-through routes: the stats, logs and delete routes only call
  `GetStats`, `GetLogs`, `GetStatistics`, `ClearSearchHistory` or
  `ClearLog`, so they are not modelled separately.
- Time: the clock is read once per request. The source reads it again for
  every record and entry, so timestamps within one request may differ there.
- Concurrency: concurrent requests racing on the same files are not
  modelled.
- Floating point: the `usagePercentage` text, the two-decimal `filterRate`
  text and the formatted threshold description are not modelled. The model
  keeps the exact fraction (`Percentage(filtered, raw)`) and the magnitude
  class (億/萬/plain).
- `parseInt` on query parameters: parameters arrive parsed as naturals, and
  `None` means absent. `NaN`, negative values and non-numeric text are not
  modelled.
- Negative `slice` limits: history and log limits are naturals.
- Query ordering: `Object.entries` lists integer-like keys first, in numeric
  order. The model keeps insertion order for every key, so the order of
  equally frequent top queries can differ when a query is a number.
- Case mapping: `toLowerCase` is the parameter `fold`. Unicode case-mapping
  details are not modelled.
- Field shapes: fields that are not strings (the `typeof` checks in
  `api/index.js`) and missing nested objects in upstream items (which throw
  in the source) are not modelled.
- The root `apiStats.js` is not part of this model. `UsageCounter` follows
  `api/apiStats.js`.
- Pre-flight status: the code answers the pre-flight refusal with status
  500 and the refusal text, because that error carries no response and no
  quota tag. This is not the dedicated quota response. The model follows
  the code, and `Routes.PreflightAnswers500` states it.
- Aggregator.UpstreamFilteredAtMostRaw: assumes the upstream answers each
  "videos" call with at most one item per id asked. The code does not check
  this.
- Aggregator.FetchPages: a `maxResults` of `NaN`, which makes the loop
  bound `NaN`, is not modelled.
- SearchHistory.GetRecentSearchHistory: takes `limit` explicitly. The
  source's default of 10 is not modelled.
- RequestLog.GetLogs: takes `limit` explicitly. The source's default of
  100 is not modelled.
- RequestLog.Bump: counts every query from 0. The code counts in a plain
  object, where a folded query naming an inherited Object.prototype method
  gets a non-numeric count and "__proto__" is dropped (see Findings).
  `RequestLog.BumpObject` models the code's step.
- RequestLog.BumpCounts: states the intended +1 for every query; the code
  gives text, not a count, to inherited method names (see Findings).
- RequestLog.BumpQueries: states the intended keys; the code never adds
  "__proto__" (see Findings).
- RequestLog.TallyCorrect: states the intended counts; the code's counts
  differ for inherited method names and "__proto__" (see Findings).
- RequestLog.TopQueriesCorrect: ranks the intended counts. For a query
  naming an inherited method the code compares text with `b[1] - a[1]`,
  which is `NaN`, so its place in the ranking is unspecified and not
  modelled; "__proto__" never appears (see Findings).
- RequestLog.GetStatistics: its top queries are those of the intended
  tally, with the gap stated for `RequestLog.TopQueriesCorrect`.

## Findings

| source | as written | input that shows it | evidently intended | confidence | as-written member | corrected member |
|---|---|---|---|---|---|---|
| searchRequestLog.js:155-159 | `queryCounts` is a plain `{}`, so `(queryCounts[q] \|\| 0) + 1` reads inherited Object.prototype members; the same code is at api/searchRequestLog.js:197-201. After `toLowerCase`, "constructor" and "__proto__" are the names a query can reach; the model keeps every Object.prototype name because the case mapping is the parameter `fold` | log one search for "constructor" (or "Constructor", once folded): its count becomes the text "function Object() { [native code] }1"; log one search for "__proto__": the assignment hits the inherited setter, which ignores it, and the query never appears in the top queries | every folded query counted from 0, as with an object without a prototype or a `Map` | high; not executed | RequestLog.ObjectTallyAsWritten, RequestLog.InheritedKeysDiverge | RequestLog.TallyCorrect |

=== FILE: aggregator.dfy ===
/** The search aggregator `searchVideos` of `server.js` (copied almost
    verbatim into `api/index.js`): a quota pre-check, a paginated run of
    "search" calls bounded by a call budget, truncation of the collected
    ids, "videos" detail calls in batches of at most 50 ids, the view-count
    filter, a stable sort by view count, the summary values, the request
    log entry and the tagging of quota errors.

    The upstream API is an oracle: `search(query, token)` answers one page,
    `videos(batch)` answers the details of a batch of ids; either may fail.
    The usage counter and the request log are files threaded through. */
module Aggregator {
  import opened Base
  import opened Videos
  import opened Sorting
  import UsageCounter
  import RequestLog

  /** Items per search page and ids per detail call (the upstream's maximum). */
  const PageSize: nat := 50
  /** The search refuses to start once today's count has reached this. */
  const QuotaGuard: nat := 9000
  const WatchUrlPrefix: string := "https://www.youtube.com/watch?v="
  /** `pageToken` recorded for the first search call of a run. */
  const FirstPageLabel: string := "first"

  type VideoId = string
  type Token = string

  /** One answer of the "search" endpoint: the video ids of the page and the
      continuation token, if any. */
  datatype Page = Page(ids: seq<VideoId>, nextPageToken: Option<Token>)

  /** One item of the "videos" endpoint; a count or thumbnail URL the
      upstream left out is None. */
  datatype VideoItem = VideoItem(
    id: VideoId,
    title: string,
    channelTitle: string,
    viewCount: Option<nat>,
    likeCount: Option<nat>,
    publishedAt: string,
    highThumbnail: Option<string>,
    defaultThumbnail: Option<string>)

  /** A rejected upstream call: the HTTP status (if a response arrived), the
      API's own error message (if any) and the transport's message. */
  datatype UpstreamError = UpstreamError(status: Option<int>, apiMessage: Option<string>, message: string)

  /** The error `searchVideos` throws, with its `quotaExceeded` tag. */
  datatype Failure = Failure(status: Option<int>, apiMessage: Option<string>, message: string, quotaExceeded: bool)

  datatype Upstream = Upstream(
    search: (string, Option<Token>) -> Result<Page, UpstreamError>,
    videos: seq<VideoId> -> Result<seq<VideoItem>, UpstreamError>)

  /** The search outcome: the source's `videos` and `logInfo`, plus the page
      tokens, top video and average that go into the request log. */
  datatype Outcome = Outcome(
    videos: seq<VideoResult>,
    rawCount: nat,
    filteredCount: nat,
    searchRequests: nat,
    videoRequests: nat,
    usedPagination: bool,
    pageTokens: seq<Token>,
    topVideo: Option<TopVideo>,
    averageViewCount: nat)

  /** The caller's `logData`. */
  datatype LogOptions = LogOptions(shouldLog: bool, source: Option<string>, historyId: Option<string>)

  /** Everything a search leaves behind: its result, the upstream calls that
      completed (in order), and the usage and log files afterwards. */
  datatype SearchRun = SearchRun(
    result: Result<Outcome, Failure>,
    calls: seq<UsageCounter.Endpoint>,
    usage: Option<UsageCounter.UsageRecord>,
    log: RequestLog.LogFile)

  // ---- pagination ---------------------------------------------------------

  /** The continuation token of a page, if it is truthy. */
  function Next(p: Page): (t: Option<Token>)
    ensures t.Some? <==> Truthy(p.nextPageToken)
    ensures t.Some? ==> t.value != "" && t == p.nextPageToken
  {
    if Truthy(p.nextPageToken) then p.nextPageToken else None
  }

  /** `Math.ceil(maxResults / 50)`: the call budget of the page loop. */
  function PageBudget(maxResults: nat): nat {
    (maxResults + PageSize - 1) / PageSize
  }

  /** All ids of a run of pages, in order. */
  function IdsOf(ps: seq<Page>): seq<VideoId> {
    if |ps| == 0 then [] else ps[0].ids + IdsOf(ps[1..])
  }

  /** The page loop's exit test after a call: enough ids, no next page, or
      the budget used up. */
  predicate Stops(collected: nat, next: Option<Token>, calls: nat, maxResults: nat, maxRequests: nat) {
    collected >= maxResults || next.None? || calls >= maxRequests
  }

  /** What the page loop produced: the pages it received, the `pageTokens`
      it pushed, and the error of the call that failed, if one did. */
  datatype FetchTrace = FetchTrace(pages: seq<Page>, pageTokens: seq<Token>, failure: Option<UpstreamError>)

  /** Calls issued by a trace: the received pages and the failed call. */
  function Attempts(r: FetchTrace): nat {
    |r.pages| + (if r.failure.Some? then 1 else 0)
  }

  function Pushed(token: Option<Token>): nat {
    if token.Some? then 1 else 0
  }

  /** The `do { ... } while` page loop, from the call that sends `token`,
      after `calls` calls that collected `count` ids. */
  function FetchPages(up: Upstream, query: string, maxResults: nat, maxRequests: nat,
                      token: Option<Token>, calls: nat, count: nat): (r: FetchTrace)
    ensures r.failure.None? ==> |r.pages| >= 1
    ensures Attempts(r) >= 1
    ensures calls + Attempts(r) <= Max(calls + 1, maxRequests)
    ensures |r.pageTokens| + 1 == Attempts(r) + Pushed(token)
    decreases maxRequests - calls
  {
    var pushed := if token.Some? then [token.value] else [];
    match up.search(query, token)
    case Err(e) => FetchTrace([], pushed, Some(e))
    case Ok(p) =>
      var next := Next(p);
      if Stops(count + |p.ids|, next, calls + 1, maxResults, maxRequests) then
        FetchTrace([p], pushed, None)
      else
        var rest := FetchPages(up, query, maxResults, maxRequests, next, calls + 1, count + |p.ids|);
        FetchTrace([p] + rest.pages, pushed + rest.pageTokens, rest.failure)
  }

  /** `ps` is the chain of pages the upstream hands out from `token` on:
      the first answers `token`, each later one the continuation token of
      the page before. */
  predicate Chained(up: Upstream, query: string, token: Option<Token>, ps: seq<Page>)
    decreases |ps|
  {
    |ps| == 0 || (up.search(query, token) == Ok(ps[0]) && Chained(up, query, Next(ps[0]), ps[1..]))
  }

  /** The token the call after the pages `ps` sends. */
  function TokenAfter(token: Option<Token>, ps: seq<Page>): Option<Token> {
    if |ps| == 0 then token else Next(ps[|ps| - 1])
  }

  /** The pages form the chain the upstream hands out, and a failure is the
      upstream's answer to the next token in the chain. */
  lemma {:induction false} FetchChained(up: Upstream, query: string, maxResults: nat, maxRequests: nat,
                                        token: Option<Token>, calls: nat, count: nat)
    ensures var r := FetchPages(up, query, maxResults, maxRequests, token, calls, count);
      && Chained(up, query, token, r.pages)
      && (r.failure.Some? ==> up.search(query, TokenAfter(token, r.pages)) == Err(r.failure.value))
    decreases maxRequests - calls
  {
    var r := FetchPages(up, query, maxResults, maxRequests, token, calls, count);
    var answer := up.search(query, token);
    if answer.Err? {
      assert r.pages == [] && r.failure == Some(answer.error);
    } else {
      var p := answer.value;
      var next := Next(p);
      if Stops(count + |p.ids|, next, calls + 1, maxResults, maxRequests) {
        assert r.pages == [p] && r.failure.None?;
        assert r.pages[1..] == [];
      } else {
        var rest := FetchPages(up, query, maxResults, maxRequests, next, calls + 1, count + |p.ids|);
        assert r.pages == [p] + rest.pages && r.failure == rest.failure;
        assert r.pages[0] == p && r.pages[1..] == rest.pages;
        FetchChained(up, query, maxResults, maxRequests, next, calls + 1, count + |p.ids|);
        assert TokenAfter(token, r.pages) == TokenAfter(next, rest.pages);
      }
    }
  }

  /** The token sent with each call after the first is the one pushed onto
      `pageTokens`, in order: the continuation token of the page before. */
  lemma {:induction false} FetchTokensPushed(up: Upstream, query: string, maxResults: nat, maxRequests: nat,
                                             token: Option<Token>, calls: nat, count: nat)
    ensures var r := FetchPages(up, query, maxResults, maxRequests, token, calls, count);
      && (token.Some? ==> r.pageTokens[0] == token.value)
      && (forall i :: 0 <= i < |r.pages| - 1 ==> Next(r.pages[i]) == Some(r.pageTokens[Pushed(token) + i]))
    decreases maxRequests - calls
  {
    var r := FetchPages(up, query, maxResults, maxRequests, token, calls, count);
    var answer := up.search(query, token);
    var pushed := if token.Some? then [token.value] else [];
    if answer.Err? {
      assert r.pages == [] && r.pageTokens == pushed;
    } else {
      var p := answer.value;
      var next := Next(p);
      if Stops(count + |p.ids|, next, calls + 1, maxResults, maxRequests) {
        assert r.pages == [p] && r.pageTokens == pushed;
      } else {
        var rest := FetchPages(up, query, maxResults, maxRequests, next, calls + 1, count + |p.ids|);
        assert r.pages == [p] + rest.pages && r.pageTokens == pushed + rest.pageTokens;
        FetchTokensPushed(up, query, maxResults, maxRequests, next, calls + 1, count + |p.ids|);
        forall i | 0 <= i < |r.pages| - 1
          ensures Next(r.pages[i]) == Some(r.pageTokens[Pushed(token) + i])
        {
          if i > 0 {
            assert r.pages[i] == rest.pages[i - 1];
            assert r.pageTokens[Pushed(token) + i] == rest.pageTokens[1 + (i - 1)];
          } else {
            assert rest.pageTokens[0] == next.value;
          }
        }
      }
    }
  }

  lemma IdsOfCons(p: Page, rest: seq<Page>)
    ensures IdsOf([p] + rest) == p.ids + IdsOf(rest)
  {
    assert ([p] + rest)[1..] == rest;
  }

  /** Every page of `ps`, received after `calls` calls that collected
      `count` ids, left the loop's exit conditions false. */
  predicate LeftOpen(ps: seq<Page>, count: nat, calls: nat, maxResults: nat, maxRequests: nat)
    decreases |ps|
  {
    |ps| == 0
    || (!Stops(count + |ps[0].ids|, Next(ps[0]), calls + 1, maxResults, maxRequests)
        && LeftOpen(ps[1..], count + |ps[0].ids|, calls + 1, maxResults, maxRequests))
  }

  /** Every page of `ps` but the last left the exit conditions false. */
  predicate OpenBeforeLast(ps: seq<Page>, count: nat, calls: nat, maxResults: nat, maxRequests: nat)
    decreases |ps|
  {
    |ps| <= 1
    || (!Stops(count + |ps[0].ids|, Next(ps[0]), calls + 1, maxResults, maxRequests)
        && OpenBeforeLast(ps[1..], count + |ps[0].ids|, calls + 1, maxResults, maxRequests))
  }

  /** The loop goes on while none of the exit conditions holds: every page
      but the last left all of them false, and so did the last page of a run
      that then failed. */
  lemma {:induction false} FetchContinuesWhileOpen(up: Upstream, query: string, maxResults: nat, maxRequests: nat,
                                                   token: Option<Token>, calls: nat, count: nat)
    ensures var r := FetchPages(up, query, maxResults, maxRequests, token, calls, count);
      && OpenBeforeLast(r.pages, count, calls, maxResults, maxRequests)
      && (r.failure.Some? ==> LeftOpen(r.pages, count, calls, maxResults, maxRequests))
    decreases maxRequests - calls
  {
    var r := FetchPages(up, query, maxResults, maxRequests, token, calls, count);
    var answer := up.search(query, token);
    if answer.Err? {
      assert r.pages == [];
    } else {
      var p := answer.value;
      var next := Next(p);
      if Stops(count + |p.ids|, next, calls + 1, maxResults, maxRequests) {
        assert r.pages == [p] && r.failure.None?;
      } else {
        var count' := count + |p.ids|;
        var rest := FetchPages(up, query, maxResults, maxRequests, next, calls + 1, count');
        assert r.pages == [p] + rest.pages && r.failure == rest.failure;
        assert r.pages[0] == p && r.pages[1..] == rest.pages;
        FetchContinuesWhileOpen(up, query, maxResults, maxRequests, next, calls + 1, count');
      }
    }
  }

  /** The loop stops only when an exit condition holds: the last page of a
      run that did not fail made one of them true. */
  lemma {:induction false} FetchStopsWhenDone(up: Upstream, query: string, maxResults: nat, maxRequests: nat,
                                              token: Option<Token>, calls: nat, count: nat)
    ensures var r := FetchPages(up, query, maxResults, maxRequests, token, calls, count);
      r.failure.None? ==>
        Stops(count + |IdsOf(r.pages)|, Next(r.pages[|r.pages| - 1]), calls + |r.pages|, maxResults, maxRequests)
    decreases maxRequests - calls
  {
    var r := FetchPages(up, query, maxResults, maxRequests, token, calls, count);
    var answer := up.search(query, token);
    if answer.Ok? {
      var p := answer.value;
      var next := Next(p);
      if Stops(count + |p.ids|, next, calls + 1, maxResults, maxRequests) {
        assert r.pages == [p] + [];
        IdsOfCons(p, []);
      } else {
        var count' := count + |p.ids|;
        var rest := FetchPages(up, query, maxResults, maxRequests, next, calls + 1, count');
        assert r.pages == [p] + rest.pages && r.failure == rest.failure;
        FetchStopsWhenDone(up, query, maxResults, maxRequests, next, calls + 1, count');
        IdsOfCons(p, rest.pages);
      }
    }
  }

  // ---- detail batches -----------------------------------------------------

  /** `allVideoIds.slice(i, i + 50)` for `i = 0, 50, 100, ...`. */
  function Batches(ids: seq<VideoId>): (r: seq<seq<VideoId>>)
    ensures Flatten(r) == ids
    ensures |r| == (|ids| + PageSize - 1) / PageSize
    ensures forall i :: 0 <= i < |r| ==> 0 < |r[i]| <= PageSize
    ensures forall i :: 0 <= i < |r| - 1 ==> |r[i]| == PageSize
    decreases |ids|
  {
    if |ids| == 0 then []
    else if |ids| <= PageSize then
      assert Flatten([ids]) == ids + Flatten([]);
      [ids]
    else
      var rest := Batches(ids[PageSize..]);
      assert ([ids[..PageSize]] + rest)[1..] == rest;
      assert ids == ids[..PageSize] + ids[PageSize..];
      [ids[..PageSize]] + rest
  }

  /** What the detail loop produced: the items of the batches that were
      answered, how many were, and the error that stopped it, if any. */
  datatype DetailTrace = DetailTrace(items: seq<VideoItem>, completed: nat, failure: Option<UpstreamError>)

  /** The upstream answers every one of `batches` without an error. */
  predicate AllAnswered(up: Upstream, batches: seq<seq<VideoId>>) {
    forall i :: 0 <= i < |batches| ==> up.videos(batches[i]).Ok?
  }

  /** The items the upstream answers for `batches`, concatenated in order. */
  function AnsweredItems(up: Upstream, batches: seq<seq<VideoId>>): seq<VideoItem>
    requires AllAnswered(up, batches)
    decreases |batches|
  {
    if |batches| == 0 then []
    else
      assert forall i :: 0 <= i < |batches| - 1 ==> batches[1..][i] == batches[i + 1];
      up.videos(batches[0]).value + AnsweredItems(up, batches[1..])
  }

  /** The detail loop: one "videos" call per batch, in order, concatenating. */
  function FetchDetails(up: Upstream, batches: seq<seq<VideoId>>): (r: DetailTrace)
    ensures r.completed <= |batches|
    ensures r.failure.None? <==> r.completed == |batches|
    ensures AllAnswered(up, batches[..r.completed])
    ensures r.items == AnsweredItems(up, batches[..r.completed])
    ensures r.failure.Some? ==> up.videos(batches[r.completed]) == Err(r.failure.value)
    decreases |batches|
  {
    if |batches| == 0 then DetailTrace([], 0, None)
    else
      var answer := up.videos(batches[0]);
      if answer.Err? then
        assert batches[..0] == [];
        DetailTrace([], 0, Some(answer.error))
      else
        var rest := FetchDetails(up, batches[1..]);
        var done := batches[..1 + rest.completed];
        assert done[0] == batches[0];
        assert done[1..] == batches[1..][..rest.completed];
        assert forall i :: 1 <= i < |done| ==> done[i] == done[1..][i - 1];
        DetailTrace(answer.value + rest.items, 1 + rest.completed, rest.failure)
  }

  /** When the upstream answers each batch with at most one item per id,
      the loop collects at most as many items as it asked about. */
  lemma {:induction false} DetailsAtMostAsked(up: Upstream, batches: seq<seq<VideoId>>)
    requires forall b :: up.videos(b).Ok? ==> |up.videos(b).value| <= |b|
    ensures |FetchDetails(up, batches).items| <= TotalLength(batches)
    decreases |batches|
  {
    if |batches| > 0 && up.videos(batches[0]).Ok? {
      DetailsAtMostAsked(up, batches[1..]);
    }
  }

  // ---- filter, map, sort ---------------------------------------------------

  /** `parseInt(video.statistics.viewCount || 0)`. */
  function ViewsOf(it: VideoItem): nat {
    it.viewCount.GetOr(0)
  }

  /** The filter's predicate: at least `minViewCount` views. */
  function MeetsThreshold(minViewCount: nat): VideoItem -> bool {
    (it: VideoItem) => ViewsOf(it) >= minViewCount
  }

  /** The result record built from an upstream item. */
  function ToResult(it: VideoItem): (v: VideoResult)
    ensures v.id == it.id && v.viewCount == ViewsOf(it)
    ensures v.title == it.title && v.channelTitle == it.channelTitle && v.publishedAt == it.publishedAt
    ensures v.likeCount == it.likeCount.GetOr(0)
    ensures v.videoUrl == WatchUrlPrefix + it.id
    ensures Truthy(it.highThumbnail) ==> v.thumbnail == it.highThumbnail
    ensures !Truthy(it.highThumbnail) ==> v.thumbnail == it.defaultThumbnail
  {
    VideoResult(
      it.id, it.title, it.channelTitle, ViewsOf(it), it.likeCount.GetOr(0), it.publishedAt,
      if Truthy(it.highThumbnail) then it.highThumbnail else it.defaultThumbnail,
      WatchUrlPrefix + it.id)
  }

  function MapResults(items: seq<VideoItem>): (r: seq<VideoResult>)
    ensures |r| == |items|
    ensures forall i :: 0 <= i < |items| ==> r[i] == ToResult(items[i])
  {
    seq(|items|, i requires 0 <= i < |items| => ToResult(items[i]))
  }

  /** Filter by threshold, map, and sort by view count (stable, largest first). */
  function Refine(items: seq<VideoItem>, minViewCount: nat): seq<VideoResult> {
    SortDesc(MapResults(Filter(items, MeetsThreshold(minViewCount))), ViewKey)
  }

  /** The kept results are exactly the items at or above the threshold,
      sorted by view count with ties in upstream order. */
  lemma RefineCorrect(items: seq<VideoItem>, minViewCount: nat)
    ensures var r := Refine(items, minViewCount);
      && |r| <= |items|
      && Descending(r, ViewKey)
      && (forall v :: v in r ==> v.viewCount >= minViewCount)
      && (forall it :: it in items && ViewsOf(it) >= minViewCount ==> ToResult(it) in r)
      && (forall v :: v in r ==> exists it :: it in items && ViewsOf(it) >= minViewCount && v == ToResult(it))
      && (forall k :: WithKey(r, ViewKey, k) == WithKey(MapResults(Filter(items, MeetsThreshold(minViewCount))), ViewKey, k))
  {
    var kept := Filter(items, MeetsThreshold(minViewCount));
    var mapped := MapResults(kept);
    var r := SortDesc(mapped, ViewKey);
    FilterMembers(items, MeetsThreshold(minViewCount));
    forall v | v in r
      ensures exists it :: it in items && ViewsOf(it) >= minViewCount && v == ToResult(it)
    {
      assert v in multiset(mapped);
      var i :| 0 <= i < |mapped| && mapped[i] == v;
      assert kept[i] in kept;
    }
    forall it | it in items && ViewsOf(it) >= minViewCount
      ensures ToResult(it) in r
    {
      assert it in kept;
      var i :| 0 <= i < |kept| && kept[i] == it;
      assert mapped[i] in multiset(r);
    }
    forall k
      ensures WithKey(r, ViewKey, k) == WithKey(mapped, ViewKey, k)
    {
      SortStable(mapped, ViewKey, k);
    }
  }

  // ---- summary values -------------------------------------------------------

  /** `Math.round(sum / n)` for a positive `n`, computed exactly: rounds to
      nearest, halves upward. */
  function RoundedMean(sum: nat, n: nat): nat
    requires n > 0
  {
    (2 * sum + n) / (2 * n)
  }

  /** `RoundedMean` is the integer nearest to `sum / n`, halves rounding up. */
  lemma RoundedMeanNearest(sum: nat, n: nat)
    requires n > 0
    ensures 2 * n * RoundedMean(sum, n) <= 2 * sum + n < 2 * n * RoundedMean(sum, n) + 2 * n
  {
    var q := RoundedMean(sum, n);
    var m := (2 * sum + n) % (2 * n);
    assert 2 * sum + n == q * (2 * n) + m;
    assert 2 * n * q == q * (2 * n);
  }

  /** The rounded mean stays within any bounds the values respect. */
  lemma RoundedMeanBetween(sum: nat, n: nat, lo: nat, hi: nat)
    requires n > 0
    requires n * lo <= sum <= n * hi
    ensures lo <= RoundedMean(sum, n) <= hi
  {
    var q := RoundedMean(sum, n);
    RoundedMeanNearest(sum, n);
    assert 2 * n * lo == 2 * (n * lo);
    assert 2 * n * hi == 2 * (n * hi);
    assert 2 * n * (q + 1) == 2 * n * q + 2 * n;
    assert 2 * n * (hi + 1) == 2 * n * hi + 2 * n;
    MulLtCancel(2 * n, lo, q + 1);
    MulLtCancel(2 * n, q, hi + 1);
  }

  lemma MulLtCancel(a: nat, x: nat, y: nat)
    requires a > 0
    requires a * x < a * y
    ensures x < y
  {
    assert a * y - a * x == a * (y - x);
  }

  /** `averageViewCount`: the rounded mean view count, or 0 for no videos. */
  function Average(vs: seq<VideoResult>): nat {
    if |vs| == 0 then 0 else RoundedMean(SumOf(vs, ViewKey), |vs|)
  }

  /** `topVideo`: the first video's id, title and count, or none. */
  function Top(vs: seq<VideoResult>): Option<TopVideo> {
    if |vs| == 0 then None else Some(TopVideo(vs[0].id, vs[0].title, vs[0].viewCount))
  }

  lemma MulSucc(n: nat, x: nat)
    ensures (n + 1) * x == n * x + x
  {
  }

  lemma {:induction false} SumOfBounds(vs: seq<VideoResult>, lo: nat, hi: nat)
    requires forall i :: 0 <= i < |vs| ==> lo <= vs[i].viewCount <= hi
    ensures |vs| * lo <= SumOf(vs, ViewKey) <= |vs| * hi
  {
    if |vs| > 0 {
      var rest := vs[1..];
      assert forall i :: 0 <= i < |rest| ==> rest[i] == vs[i + 1];
      SumOfBounds(rest, lo, hi);
      MulSucc(|rest|, lo);
      MulSucc(|rest|, hi);
    }
  }

  /** On refined results the top video is the most viewed one, and the
      average lies between the threshold and the top video's count. */
  lemma SummaryCorrect(items: seq<VideoItem>, minViewCount: nat)
    ensures var vs := Refine(items, minViewCount);
      && (Top(vs).None? <==> |vs| == 0)
      && (Top(vs).Some? ==> vs[0] in vs && forall v :: v in vs ==> v.viewCount <= Top(vs).value.viewCount)
      && (|vs| == 0 ==> Average(vs) == 0)
      && (|vs| > 0 ==> minViewCount <= Average(vs) <= Top(vs).value.viewCount)
  {
    var vs := Refine(items, minViewCount);
    RefineCorrect(items, minViewCount);
    if |vs| > 0 {
      HeadIsMaximal(vs, ViewKey);
      assert forall i :: 0 <= i < |vs| ==> vs[i] in vs;
      SumOfBounds(vs, minViewCount, vs[0].viewCount);
      RoundedMeanBetween(SumOf(vs, ViewKey), |vs|, minViewCount, vs[0].viewCount);
    }
  }

  // ---- errors -------------------------------------------------------------

  /** The catch block of `searchVideos`: a 403 whose API message mentions
      "quota" or "exceeded" is tagged as quota exhaustion. */
  function Tag(e: UpstreamError): (f: Failure)
    ensures f.status == e.status && f.apiMessage == e.apiMessage && f.message == e.message
    ensures f.quotaExceeded <==> (e.status == Some(403)
      && (Contains(StrOr(e.apiMessage, ""), "quota") || Contains(StrOr(e.apiMessage, ""), "exceeded")))
  {
    var msg := StrOr(e.apiMessage, "");
    Failure(e.status, e.apiMessage, e.message, e.status == Some(403) && (Contains(msg, "quota") || Contains(msg, "exceeded")))
  }

  /** The message of the pre-flight refusal. */
  function PreflightMessage(today: nat): string {
    "API 配額即將用盡，今日已使用 " + NatToString(today) + " 單位，建議使用搜尋歷史功能"
  }

  /** The pre-flight refusal: a plain error, no response, no tag. */
  function PreflightFailure(today: nat): Failure {
    Failure(None, None, PreflightMessage(today), false)
  }

  // ---- the whole search -----------------------------------------------------

  /** The "search" calls recorded for the first `n` pages: the first with
      the label "first", each later one with the token pushed for it. */
  function SearchCallLog(query: string, pageTokens: seq<Token>, n: nat): (r: seq<UsageCounter.Endpoint>)
    requires n == 0 || n - 1 <= |pageTokens|
    ensures |r| == n
    ensures forall i :: 0 <= i < n ==> r[i].SearchCall? && r[i].query == query && r[i].maxResults == PageSize
    ensures n > 0 ==> r[0].pageToken == FirstPageLabel
    ensures forall i :: 1 <= i < n ==> r[i].pageToken == pageTokens[i - 1]
  {
    seq(n, j requires 0 <= j < n => UsageCounter.SearchCall(query, PageSize, if j == 0 then FirstPageLabel else pageTokens[j - 1]))
  }

  /** The "videos" calls recorded for the answered batches. */
  function VideoCallLog(batches: seq<seq<VideoId>>): (r: seq<UsageCounter.Endpoint>)
    ensures |r| == |batches|
    ensures forall i :: 0 <= i < |batches| ==> r[i] == UsageCounter.VideosCall(|batches[i]|)
  {
    seq(|batches|, i requires 0 <= i < |batches| => UsageCounter.VideosCall(|batches[i]|))
  }

  /** The number of ids the recorded "videos" calls asked about. */
  function VideoIdsAsked(calls: seq<UsageCounter.Endpoint>): nat {
    if |calls| == 0 then 0
    else (if calls[0].VideosCall? then calls[0].videoCount else 0) + VideoIdsAsked(calls[1..])
  }

  lemma {:induction false} VideoCallLogAsks(batches: seq<seq<VideoId>>)
    ensures VideoIdsAsked(VideoCallLog(batches)) == TotalLength(batches)
  {
    if |batches| > 0 {
      VideoCallLogAsks(batches[1..]);
      assert VideoCallLog(batches)[1..] == VideoCallLog(batches[1..]);
    }
  }

  /** The detail stage for the kept ids: the "videos" calls that completed
      and either the refined results or the error of the failing call. */
  datatype Detailed = Detailed(calls: seq<UsageCounter.Endpoint>, result: Result<seq<VideoResult>, UpstreamError>)

  /** The batch loop of `searchVideos` followed by filter, map and sort. */
  function DetailStage(up: Upstream, ids: seq<VideoId>, minViewCount: nat): (d: Detailed)
    ensures forall i :: 0 <= i < |d.calls| ==> d.calls[i].VideosCall? && 0 < d.calls[i].videoCount <= PageSize
    ensures d.result.Ok? ==> |d.calls| == (|ids| + PageSize - 1) / PageSize && VideoIdsAsked(d.calls) == |ids|
    ensures d.result.Ok? ==>
      AllAnswered(up, Batches(ids)) && d.result.value == Refine(AnsweredItems(up, Batches(ids)), minViewCount)
    ensures d.result.Err? ==>
      |d.calls| < |Batches(ids)| && up.videos(Batches(ids)[|d.calls|]) == Err(d.result.error)
  {
    var batches := Batches(ids);
    var details := FetchDetails(up, batches);
    var calls := VideoCallLog(batches[..details.completed]);
    if details.failure.Some? then
      assert |calls| == details.completed;
      Detailed(calls, Err(details.failure.value))
    else
      assert batches[..details.completed] == batches;
      VideoCallLogAsks(batches);
      FlattenLength(batches);
      Detailed(calls, Ok(Refine(details.items, minViewCount)))
  }

  /** What the upstream part of a search produced: its result and the calls
      it completed, in order. */
  datatype Exchange = Exchange(result: Result<Outcome, Failure>, calls: seq<UsageCounter.Endpoint>)

  /** The ids a search keeps: the first `maxResults` of the ids the page
      loop collected (`allVideoIds.slice(0, maxResults)`). */
  function KeptIds(up: Upstream, query: string, maxResults: nat): seq<VideoId> {
    Take(IdsOf(FetchPages(up, query, maxResults, PageBudget(maxResults), None, 0, 0).pages), maxResults)
  }

  /** The part of `searchVideos` after the pre-flight check: paging, the
      empty-result shortcut, the detail stage and the summary values. */
  function SearchUpstream(up: Upstream, query: string, maxResults: nat, minViewCount: nat): (x: Exchange)
    ensures x.result.Ok? ==> x.result.value.rawCount <= maxResults && x.result.value.filteredCount == |x.result.value.videos|
    ensures x.result.Ok? && x.result.value.rawCount == 0 ==>
      x.result.value.videos == [] && x.result.value.topVideo.None? && x.result.value.videoRequests == 0
  {
    var fetched := FetchPages(up, query, maxResults, PageBudget(maxResults), None, 0, 0);
    var searchCalls := SearchCallLog(query, fetched.pageTokens, |fetched.pages|);
    if fetched.failure.Some? then
      Exchange(Err(Tag(fetched.failure.value)), searchCalls)
    else
      var ids := KeptIds(up, query, maxResults);
      var usedPagination := |fetched.pageTokens| > 0;
      if |ids| == 0 then
        Exchange(Ok(Outcome([], 0, 0, |fetched.pages|, 0, usedPagination, fetched.pageTokens, None, 0)), searchCalls)
      else
        var d := DetailStage(up, ids, minViewCount);
        match d.result
        case Err(e) => Exchange(Err(Tag(e)), searchCalls + d.calls)
        case Ok(videos) =>
          Exchange(Ok(Outcome(videos, |ids|, |videos|, |fetched.pages|, |d.calls|, usedPagination,
                              fetched.pageTokens, Top(videos), Average(videos))),
                   searchCalls + d.calls)
  }

  /** The `logData` `searchVideos` hands to the request log; the early
      return for no ids passes neither top video nor average. */
  function LogData(query: string, maxResults: nat, minViewCount: nat, o: Outcome, opts: LogOptions): (d: RequestLog.LogRequest)
    ensures d.query == Some(query) && d.rawCount == Some(o.rawCount) && d.filteredCount == Some(o.filteredCount)
    ensures d.searchRequests == Some(o.searchRequests) && d.videoRequests == Some(o.videoRequests)
    ensures d.usedPagination == (|o.pageTokens| > 0) && d.pageTokens == o.pageTokens
    ensures o.rawCount > 0 ==> d.topVideo == o.topVideo && d.averageViewCount == Some(o.averageViewCount)
    ensures o.rawCount == 0 ==> d.topVideo.None? && d.averageViewCount.None?
    ensures d.source == Some(StrOr(opts.source, RequestLog.DefaultSource))
    ensures d.maxResults == Some(maxResults) && d.requestedResults == Some(maxResults)
    ensures d.minViewCount == Some(minViewCount)
    ensures d.historyId == (if Truthy(opts.historyId) then opts.historyId else None)
  {
    var withSummary := o.rawCount > 0;
    RequestLog.LogRequest(
      Some(query), Some(maxResults), Some(maxResults),
      Some(o.searchRequests), Some(o.videoRequests), |o.pageTokens| > 0, o.pageTokens,
      Some(o.rawCount), Some(o.filteredCount), Some(minViewCount),
      if withSummary then o.topVideo else None,
      if withSummary then Some(o.averageViewCount) else None,
      Some(StrOr(opts.source, RequestLog.DefaultSource)),
      if Truthy(opts.historyId) then opts.historyId else None)
  }

  /** Today's count as the pre-flight check sees it. */
  function TodayBefore(usage: Option<UsageCounter.UsageRecord>, clock: Clock): nat {
    UsageCounter.GetStats(usage, clock.date).snapshot.todayRequests
  }

  /** `searchVideos`: the pre-flight check, then the upstream part; every
      completed call is recorded in the usage file, and a successful search
      is logged when the caller asks for it. */
  function SearchVideos(up: Upstream, usage: Option<UsageCounter.UsageRecord>, log: RequestLog.LogFile, clock: Clock,
                        query: string, maxResults: nat, minViewCount: nat, opts: LogOptions): (run: SearchRun)
    ensures var pre := UsageCounter.GetStats(usage, clock.date);
      pre.snapshot.todayRequests >= QuotaGuard ==>
        run == SearchRun(Err(PreflightFailure(pre.snapshot.todayRequests)), [], pre.file, log)
    ensures TodayBefore(usage, clock) < QuotaGuard ==>
      run.result == SearchUpstream(up, query, maxResults, minViewCount).result
      && run.calls == SearchUpstream(up, query, maxResults, minViewCount).calls
    ensures run.result.Err? || !opts.shouldLog ==> run.log == log
    ensures run.result.Ok? && opts.shouldLog ==>
      RequestLog.ReadLog(run.log) == RequestLog.LogSearchRequest(log, clock, LogData(query, maxResults, minViewCount, run.result.value, opts))
  {
    var pre := UsageCounter.GetStats(usage, clock.date);
    if pre.snapshot.todayRequests >= QuotaGuard then
      SearchRun(Err(PreflightFailure(pre.snapshot.todayRequests)), [], pre.file, log)
    else
      var x := SearchUpstream(up, query, maxResults, minViewCount);
      var usage' := UsageCounter.RecordCalls(pre.file, clock.date, clock.iso, x.calls);
      var log' :=
        if x.result.Ok? && opts.shouldLog
        then Some(RequestLog.LogSearchRequest(log, clock, LogData(query, maxResults, minViewCount, x.result.value, opts)))
        else log;
      SearchRun(x.result, x.calls, usage', log')
  }

  // ---- properties of a whole search ----------------------------------------

  /** How many of the recorded calls, from the start, are "search" calls. */
  function LeadingSearches(calls: seq<UsageCounter.Endpoint>): (k: nat)
    ensures k <= |calls|
    ensures forall i :: 0 <= i < k ==> calls[i].SearchCall?
    ensures k < |calls| ==> !calls[k].SearchCall?
  {
    if |calls| == 0 || !calls[0].SearchCall? then 0
    else 1 + LeadingSearches(calls[1..])
  }

  lemma {:induction false} VideoIdsAskedAppend(a: seq<UsageCounter.Endpoint>, b: seq<UsageCounter.Endpoint>)
    ensures VideoIdsAsked(a + b) == VideoIdsAsked(a) + VideoIdsAsked(b)
  {
    if |a| > 0 {
      assert (a + b)[1..] == a[1..] + b;
      VideoIdsAskedAppend(a[1..], b);
    } else {
      assert a + b == b;
    }
  }

  lemma {:induction false} SearchesAskNothing(calls: seq<UsageCounter.Endpoint>)
    requires forall i :: 0 <= i < |calls| ==> calls[i].SearchCall?
    ensures VideoIdsAsked(calls) == 0
  {
    if |calls| > 0 {
      SearchesAskNothing(calls[1..]);
    }
  }

  lemma LeadingSearchesSplit(a: seq<UsageCounter.Endpoint>, b: seq<UsageCounter.Endpoint>)
    requires forall i :: 0 <= i < |a| ==> a[i].SearchCall?
    requires forall i :: 0 <= i < |b| ==> b[i].VideosCall?
    ensures LeadingSearches(a + b) == |a|
  {
    if |b| > 0 {
      assert (a + b)[|a|] == b[0];
    }
  }

  /** A search refused by the pre-flight check issues no call, records
      nothing, leaves the log alone and reports a plain, untagged error. */
  lemma PreflightBlocks(up: Upstream, usage: Option<UsageCounter.UsageRecord>, log: RequestLog.LogFile, clock: Clock,
                        query: string, maxResults: nat, minViewCount: nat, opts: LogOptions)
    requires TodayBefore(usage, clock) >= QuotaGuard
    ensures var run := SearchVideos(up, usage, log, clock, query, maxResults, minViewCount, opts);
      && run.result.Err? && run.calls == [] && run.log == log
      && !run.result.error.quotaExceeded && run.result.error.status.None?
      && UsageCounter.ReadApiStats(run.usage, clock.date).total == UsageCounter.ReadApiStats(usage, clock.date).total
  {
  }

  /** The calls of the upstream part: a run of "search" calls, at most
      `Math.ceil(maxResults / 50)` of them, the first sent without a token;
      then "videos" calls for 1 to 50 ids each. */
  lemma UpstreamCallsShape(up: Upstream, query: string, maxResults: nat, minViewCount: nat)
    ensures var x := SearchUpstream(up, query, maxResults, minViewCount);
      var k := LeadingSearches(x.calls);
      && k <= Max(1, PageBudget(maxResults))
      && (forall i :: 0 <= i < k ==> x.calls[i].query == query && x.calls[i].maxResults == PageSize)
      && (k > 0 ==> x.calls[0].pageToken == FirstPageLabel)
      && (forall i :: k <= i < |x.calls| ==> x.calls[i].VideosCall? && 0 < x.calls[i].videoCount <= PageSize)
  {
    var x := SearchUpstream(up, query, maxResults, minViewCount);
    var fetched := FetchPages(up, query, maxResults, PageBudget(maxResults), None, 0, 0);
    var ids := KeptIds(up, query, maxResults);
    var videoCalls: seq<UsageCounter.Endpoint> :=
      if fetched.failure.Some? || |ids| == 0 then [] else DetailStage(up, ids, minViewCount).calls;
    assert x.calls == SearchCallLog(query, fetched.pageTokens, |fetched.pages|) + videoCalls;
    CallLogShape(query, fetched.pageTokens, |fetched.pages|, videoCalls);
  }

  /** The shape of "search" calls followed by "videos" calls. */
  lemma CallLogShape(query: string, pageTokens: seq<Token>, n: nat, videoCalls: seq<UsageCounter.Endpoint>)
    requires n == 0 || n - 1 <= |pageTokens|
    requires forall i :: 0 <= i < |videoCalls| ==> videoCalls[i].VideosCall? && 0 < videoCalls[i].videoCount <= PageSize
    ensures var calls := SearchCallLog(query, pageTokens, n) + videoCalls;
      && LeadingSearches(calls) == n
      && (forall i :: 0 <= i < n ==> calls[i].query == query && calls[i].maxResults == PageSize)
      && (n > 0 ==> calls[0].pageToken == FirstPageLabel)
      && (forall i :: n <= i < |calls| ==> calls[i].VideosCall? && 0 < calls[i].videoCount <= PageSize)
  {
    var searchCalls := SearchCallLog(query, pageTokens, n);
    LeadingSearchesSplit(searchCalls, videoCalls);
  }

  /** On success the calls match the reported counters: one "search" call
      per page, each after the first sent with the token pushed for it, one
      "videos" call per detail request, and the "videos" calls together ask
      about exactly the kept ids. */
  lemma UpstreamCallsCounted(up: Upstream, query: string, maxResults: nat, minViewCount: nat)
    ensures var x := SearchUpstream(up, query, maxResults, minViewCount);
      var k := LeadingSearches(x.calls);
      x.result.Ok? ==>
        && k == x.result.value.searchRequests
        && |x.calls| == k + x.result.value.videoRequests
        && VideoIdsAsked(x.calls) == x.result.value.rawCount
  {
    var x := SearchUpstream(up, query, maxResults, minViewCount);
    var fetched := FetchPages(up, query, maxResults, PageBudget(maxResults), None, 0, 0);
    var searchCalls := SearchCallLog(query, fetched.pageTokens, |fetched.pages|);
    if x.result.Ok? {
      assert fetched.failure.None?;
      SearchesAskNothing(searchCalls);
      var ids := KeptIds(up, query, maxResults);
      if |ids| == 0 {
        assert x.calls == searchCalls + [];
        LeadingSearchesSplit(searchCalls, []);
      } else {
        var d := DetailStage(up, ids, minViewCount);
        assert d.result.Ok?;
        assert x.calls == searchCalls + d.calls;
        assert x.result.value.videoRequests == |d.calls|;
        LeadingSearchesSplit(searchCalls, d.calls);
        VideoIdsAskedAppend(searchCalls, d.calls);
      }
    }
  }

  /** On success each "search" call after the first was recorded with the
      token pushed for it. */
  lemma UpstreamCallTokens(up: Upstream, query: string, maxResults: nat, minViewCount: nat)
    ensures var x := SearchUpstream(up, query, maxResults, minViewCount);
      var k := LeadingSearches(x.calls);
      x.result.Ok? ==>
        && k == x.result.value.searchRequests
        && forall i :: 1 <= i < k ==> x.calls[i].pageToken == x.result.value.pageTokens[i - 1]
  {
    var x := SearchUpstream(up, query, maxResults, minViewCount);
    var fetched := FetchPages(up, query, maxResults, PageBudget(maxResults), None, 0, 0);
    var searchCalls := SearchCallLog(query, fetched.pageTokens, |fetched.pages|);
    if x.result.Ok? {
      assert fetched.failure.None?;
      var ids := KeptIds(up, query, maxResults);
      if |ids| == 0 {
        assert x.calls == searchCalls + [];
        LeadingSearchesSplit(searchCalls, []);
      } else {
        var d := DetailStage(up, ids, minViewCount);
        assert d.result.Ok?;
        assert x.calls == searchCalls + d.calls;
        LeadingSearchesSplit(searchCalls, d.calls);
      }
    }
  }

  /** A successful search keeps the first `maxResults` collected ids,
      reports their number as `rawCount`, and returns exactly the refined
      answers of the detail calls for those ids. */
  lemma UpstreamVideosRefined(up: Upstream, query: string, maxResults: nat, minViewCount: nat)
    ensures var x := SearchUpstream(up, query, maxResults, minViewCount);
      var kept := KeptIds(up, query, maxResults);
      x.result.Ok? ==>
        && x.result.value.rawCount == |kept|
        && AllAnswered(up, Batches(kept))
        && x.result.value.videos == Refine(AnsweredItems(up, Batches(kept)), minViewCount)
  {
    var x := SearchUpstream(up, query, maxResults, minViewCount);
    var fetched := FetchPages(up, query, maxResults, PageBudget(maxResults), None, 0, 0);
    var kept := KeptIds(up, query, maxResults);
    if x.result.Ok? {
      assert fetched.failure.None?;
      if |kept| == 0 {
        assert Batches(kept) == [];
        assert x.result.value.videos == [];
        assert Refine(AnsweredItems(up, []), minViewCount) == [];
      } else {
        var d := DetailStage(up, kept, minViewCount);
        assert d.result.Ok?;
        assert x.result.value.videos == d.result.value;
      }
    }
  }

  /** The counters a successful search reports: the pages it paged through
      (pagination used exactly when there was more than one), the ids it
      kept (never more than asked for), one detail call per started block
      of 50 kept ids, and one result per reported video. */
  lemma UpstreamOutcomeShape(up: Upstream, query: string, maxResults: nat, minViewCount: nat)
    ensures var x := SearchUpstream(up, query, maxResults, minViewCount);
      x.result.Ok? ==>
        var o := x.result.value;
        && 1 <= o.searchRequests <= Max(1, PageBudget(maxResults))
        && |o.pageTokens| + 1 == o.searchRequests
        && (o.usedPagination <==> o.searchRequests > 1)
        && o.rawCount == Min(maxResults, |IdsOf(FetchPages(up, query, maxResults, PageBudget(maxResults), None, 0, 0).pages)|)
        && o.videoRequests == (o.rawCount + PageSize - 1) / PageSize
        && o.filteredCount == |o.videos|
  {
    UpstreamVideosRefined(up, query, maxResults, minViewCount);
  }

  /** The results of a successful search are exactly the detail answers at
      or above the threshold, sorted by view count; the top video is the
      most viewed one and the average lies between the threshold and its
      count. */
  lemma UpstreamResultsRanked(up: Upstream, query: string, maxResults: nat, minViewCount: nat)
    ensures var x := SearchUpstream(up, query, maxResults, minViewCount);
      var batches := Batches(KeptIds(up, query, maxResults));
      x.result.Ok? ==>
        var o := x.result.value;
        && Descending(o.videos, ViewKey)
        && (forall v :: v in o.videos ==> v.viewCount >= minViewCount)
        && AllAnswered(up, batches)
        && (forall it :: it in AnsweredItems(up, batches) && ViewsOf(it) >= minViewCount ==> ToResult(it) in o.videos)
        && (forall v :: v in o.videos ==>
              exists it :: it in AnsweredItems(up, batches) && ViewsOf(it) >= minViewCount && v == ToResult(it))
        && (o.topVideo.None? <==> |o.videos| == 0)
        && (o.topVideo.Some? ==>
              o.topVideo.value.id == o.videos[0].id && forall v :: v in o.videos ==> v.viewCount <= o.topVideo.value.viewCount)
        && (|o.videos| == 0 ==> o.averageViewCount == 0)
        && (|o.videos| > 0 ==> minViewCount <= o.averageViewCount <= o.topVideo.value.viewCount)
  {
    var x := SearchUpstream(up, query, maxResults, minViewCount);
    var batches := Batches(KeptIds(up, query, maxResults));
    UpstreamVideosRefined(up, query, maxResults, minViewCount);
    if x.result.Ok? {
      var items := AnsweredItems(up, batches);
      RefineCorrect(items, minViewCount);
      SummaryCorrect(items, minViewCount);
      var fetched := FetchPages(up, query, maxResults, PageBudget(maxResults), None, 0, 0);
      assert fetched.failure.None?;
      if |KeptIds(up, query, maxResults)| > 0 {
        var videos := Refine(items, minViewCount);
        assert x.result.value.topVideo == Top(videos) && x.result.value.averageViewCount == Average(videos);
      }
    }
  }

  /** If the upstream never answers a detail call with more items than ids
      asked about, a search never reports more results than kept ids. */
  lemma UpstreamFilteredAtMostRaw(up: Upstream, query: string, maxResults: nat, minViewCount: nat)
    requires forall b :: up.videos(b).Ok? ==> |up.videos(b).value| <= |b|
    ensures var x := SearchUpstream(up, query, maxResults, minViewCount);
      x.result.Ok? ==> x.result.value.filteredCount <= x.result.value.rawCount
  {
    var fetched := FetchPages(up, query, maxResults, PageBudget(maxResults), None, 0, 0);
    if fetched.failure.None? {
      var ids := Take(IdsOf(fetched.pages), maxResults);
      if |ids| > 0 {
        var batches := Batches(ids);
        DetailsAtMostAsked(up, batches);
        FlattenLength(batches);
        RefineCorrect(FetchDetails(up, batches).items, minViewCount);
      }
    }
  }

  /** A failed search reports the error of the upstream call that failed,
      tagged as quota exhaustion exactly when it is a 403 whose API message
      mentions "quota" or "exceeded". */
  lemma UpstreamErrorTagged(up: Upstream, query: string, maxResults: nat, minViewCount: nat)
    ensures var x := SearchUpstream(up, query, maxResults, minViewCount);
      x.result.Err? ==>
        var f := x.result.error;
        && (f.quotaExceeded <==> (f.status == Some(403)
              && (Contains(StrOr(f.apiMessage, ""), "quota") || Contains(StrOr(f.apiMessage, ""), "exceeded"))))
        && exists e :: f == Tag(e) && ((exists t :: up.search(query, t) == Err(e)) || (exists b :: up.videos(b) == Err(e)))
  {
    var x := SearchUpstream(up, query, maxResults, minViewCount);
    var fetched := FetchPages(up, query, maxResults, PageBudget(maxResults), None, 0, 0);
    FetchChained(up, query, maxResults, PageBudget(maxResults), None, 0, 0);
    if fetched.failure.Some? {
      var e := fetched.failure.value;
      assert up.search(query, TokenAfter(None, fetched.pages)) == Err(e);
      assert x.result.error == Tag(e);
    } else {
      var ids := Take(IdsOf(fetched.pages), maxResults);
      if |ids| > 0 {
        var batches := Batches(ids);
        var details := FetchDetails(up, batches);
        if details.failure.Some? {
          var e := details.failure.value;
          assert up.videos(batches[details.completed]) == Err(e);
          assert x.result.error == Tag(e);
        }
      }
    }
  }

  /** Every call the search completed is counted once in the usage file, in
      the total and (after the day rollover) in today's count; the file's
      window of call records stays bounded and gains one record per call,
      in call order. */
  lemma SearchUsageAccounted(up: Upstream, usage: Option<UsageCounter.UsageRecord>, log: RequestLog.LogFile, clock: Clock,
                             query: string, maxResults: nat, minViewCount: nat, opts: LogOptions)
    ensures var run := SearchVideos(up, usage, log, clock, query, maxResults, minViewCount, opts);
      var before := UsageCounter.ResetDailyCounterIfNeeded(UsageCounter.ReadApiStats(usage, clock.date), clock.date);
      var after := UsageCounter.ReadApiStats(run.usage, clock.date);
      && after.total == before.total + |run.calls|
      && after.today == before.today + |run.calls|
      && (UsageCounter.Bounded(usage) ==> UsageCounter.Bounded(run.usage))
      && (UsageCounter.Bounded(usage) ==>
            after.requests == Last(before.requests + UsageCounter.Entries(clock.iso, run.calls), UsageCounter.RequestCap))
  {
    var run := SearchVideos(up, usage, log, clock, query, maxResults, minViewCount, opts);
    var pre := UsageCounter.GetStats(usage, clock.date);
    UsageCounter.RolloverIdempotent(UsageCounter.ReadApiStats(usage, clock.date), clock.date);
    UsageCounter.RecordCallsCounts(pre.file, clock.date, clock.iso, run.calls);
    if UsageCounter.Bounded(usage) {
      UsageCounter.RecordCallsWindow(pre.file, clock.date, clock.iso, run.calls);
    }
  }

  /** The log entry built from a search outcome carries the outcome's counters. */
  lemma LoggedEntry(clock: Clock, query: string, maxResults: nat, minViewCount: nat, o: Outcome, opts: LogOptions)
    requires o.filteredCount == |o.videos|
    requires o.rawCount == 0 ==> o.topVideo.None?
    ensures var e := RequestLog.BuildEntry(clock, LogData(query, maxResults, minViewCount, o, opts));
      && e.query == query
      && e.totalRequests == o.searchRequests + o.videoRequests
      && e.searchRequests == o.searchRequests && e.videoRequests == o.videoRequests
      && e.rawCount == o.rawCount && e.filteredCount == o.filteredCount
      && (e.hasResults <==> |o.videos| > 0)
      && e.pageTokens == o.pageTokens && e.usedPagination == (|o.pageTokens| > 0)
      && e.topVideo == o.topVideo
      && e.source == StrOr(opts.source, RequestLog.DefaultSource)
      && e.minViewCount == (if minViewCount > 0 then minViewCount else RequestLog.DefaultThreshold)
      && e.maxResults == (if maxResults > 0 then maxResults else RequestLog.DefaultMaxResults)
      && e.requestedResults == e.maxResults
      && e.averageViewCount == (if o.rawCount > 0 then o.averageViewCount else 0)
      && e.historyId == (if Truthy(opts.historyId) then opts.historyId else None)
  {
  }

  /** A logged search's entry reports the search's own counters: its total
      request count is the number of calls the usage file recorded. */
  lemma SearchLogged(up: Upstream, usage: Option<UsageCounter.UsageRecord>, log: RequestLog.LogFile, clock: Clock,
                     query: string, maxResults: nat, minViewCount: nat, opts: LogOptions)
    requires opts.shouldLog
    ensures var run := SearchVideos(up, usage, log, clock, query, maxResults, minViewCount, opts);
      run.result.Ok? ==>
        var o := run.result.value;
        var e := RequestLog.ReadLog(run.log)[0];
        && e.query == query
        && e.totalRequests == |run.calls|
        && e.searchRequests == o.searchRequests && e.videoRequests == o.videoRequests
        && e.rawCount == o.rawCount && e.filteredCount == o.filteredCount
        && (e.hasResults <==> |o.videos| > 0)
        && e.pageTokens == o.pageTokens && e.usedPagination == o.usedPagination
        && e.topVideo == o.topVideo
        && e.source == StrOr(opts.source, RequestLog.DefaultSource)
        && e.minViewCount == (if minViewCount > 0 then minViewCount else RequestLog.DefaultThreshold)
        && e.maxResults == (if maxResults > 0 then maxResults else RequestLog.DefaultMaxResults)
        && e.averageViewCount == o.averageViewCount
        && e.historyId == (if Truthy(opts.historyId) then opts.historyId else None)
  {
    var run := SearchVideos(up, usage, log, clock, query, maxResults, minViewCount, opts);
    if run.result.Ok? {
      var o := run.result.value;
      var x := SearchUpstream(up, query, maxResults, minViewCount);
      assert run.calls == x.calls && run.result == x.result;
      UpstreamCallsCounted(up, query, maxResults, minViewCount);
      UpstreamOutcomeShape(up, query, maxResults, minViewCount);
      assert |run.calls| == o.searchRequests + o.videoRequests;
      LoggedEntry(clock, query, maxResults, minViewCount, o, opts);
      assert RequestLog.ReadLog(run.log)[0] == RequestLog.BuildEntry(clock, LogData(query, maxResults, minViewCount, o, opts));
    }
  }

  /** A logged search puts its entry in front of the older entries, dropping
      the oldest once the log is full; a search that failed or is not to be
      logged leaves the log alone. */
  lemma SearchLogOrder(up: Upstream, usage: Option<UsageCounter.UsageRecord>, log: RequestLog.LogFile, clock: Clock,
                       query: string, maxResults: nat, minViewCount: nat, opts: LogOptions)
    ensures var run := SearchVideos(up, usage, log, clock, query, maxResults, minViewCount, opts);
      var before := RequestLog.ReadLog(log);
      var after := RequestLog.ReadLog(run.log);
      && (run.result.Ok? && opts.shouldLog ==>
            |after| == Min(|before| + 1, RequestLog.LogCap) && after[1..] == before[..|after| - 1])
      && (run.result.Err? || !opts.shouldLog ==> after == before)
  {
  }
}

=== FILE: base.dfy ===
/** Shared vocabulary: optional and failure-carrying values, and the few
    JavaScript built-ins the modelled code relies on (truthiness defaults,
    `slice`, `concat`, `includes`, `reduce` for sums, `filter(...).length`). */
module Base {

  datatype Option<T> = None | Some(value: T) {
    function GetOr(default: T): T {
      if Some? then value else default
    }
  }

  datatype Result<T, E> = Ok(value: T) | Err(error: E)

  /** One reading of the clock, in the renderings the modelled code uses:
      `toDateString()` (the day), `toISOString()`, `Date.now().toString()`
      and the zh-TW locale date and time strings. */
  datatype Clock = Clock(date: string, iso: string, millis: string, localDate: string, localTime: string)

  function Min(a: int, b: int): int { if a <= b then a else b }

  function Max(a: int, b: int): int { if a >= b then a else b }

  /** JavaScript truthiness of an optional string: absent and "" are falsy. */
  predicate Truthy(o: Option<string>) {
    o.Some? && o.value != ""
  }

  /** `o || d` for an optional string. */
  function StrOr(o: Option<string>, d: string): (r: string)
    ensures Truthy(o) ==> r == o.value
    ensures !Truthy(o) ==> r == d
  {
    if Truthy(o) then o.value else d
  }

  /** `o || d` for an optional natural number: absent and 0 are falsy. */
  function NatOr(o: Option<nat>, d: nat): (r: nat)
    ensures o.Some? && o.value != 0 ==> r == o.value
    ensures o.None? || o.value == 0 ==> r == d
  {
    if o.Some? && o.value != 0 then o.value else d
  }

  /** `s.slice(0, n)`: the first `min(n, |s|)` elements. */
  function Take<T>(s: seq<T>, n: nat): (r: seq<T>)
    ensures |r| == Min(n, |s|)
    ensures r == s[..|r|]
  {
    if n <= |s| then s[..n] else s
  }

  /** `s.slice(-n)` for a positive `n`: the last `min(n, |s|)` elements. */
  function Last<T>(s: seq<T>, n: nat): (r: seq<T>)
    ensures |r| == Min(n, |s|)
    ensures r == s[|s| - |r|..]
  {
    if n <= |s| then s[|s| - n..] else s
  }

  /** Concatenation of a sequence of sequences, front to back. */
  function Flatten<T>(ss: seq<seq<T>>): seq<T> {
    if |ss| == 0 then [] else ss[0] + Flatten(ss[1..])
  }

  lemma {:induction false} FlattenAppend<T>(a: seq<seq<T>>, b: seq<seq<T>>)
    ensures Flatten(a + b) == Flatten(a) + Flatten(b)
  {
    if |a| == 0 {
      assert a + b == b;
    } else {
      assert (a + b)[1..] == a[1..] + b;
      FlattenAppend(a[1..], b);
    }
  }

  /** Total length of a sequence of sequences. */
  function TotalLength<T>(ss: seq<seq<T>>): nat {
    if |ss| == 0 then 0 else |ss[0]| + TotalLength(ss[1..])
  }

  lemma {:induction false} FlattenLength<T>(ss: seq<seq<T>>)
    ensures |Flatten(ss)| == TotalLength(ss)
  {
    if |ss| > 0 {
      FlattenLength(ss[1..]);
    }
  }

  /** `s.startsWith(p)`. */
  predicate StartsWith(s: string, p: string) {
    |p| <= |s| && s[..|p|] == p
  }

  /** `s.includes(sub)`: `sub` occurs in `s` at some position. */
  predicate Contains(s: string, sub: string)
    decreases |s|
  {
    StartsWith(s, sub) || (|s| > 0 && Contains(s[1..], sub))
  }

  /** A string without the first character of `sub` cannot contain `sub`. */
  lemma {:induction false} NotContainsWithoutHead(s: string, sub: string)
    requires |sub| > 0
    requires forall i :: 0 <= i < |s| ==> s[i] != sub[0]
    ensures !Contains(s, sub)
    decreases |s|
  {
    if |s| > 0 {
      assert s[0] != sub[0];
      NotContainsWithoutHead(s[1..], sub);
    }
  }

  /** `s.reduce((a, x) => a + f(x), 0)`. */
  function SumOf<T>(s: seq<T>, f: T -> nat): nat {
    if |s| == 0 then 0 else f(s[0]) + SumOf(s[1..], f)
  }

  lemma {:induction false} SumOfAppend<T>(a: seq<T>, b: seq<T>, f: T -> nat)
    ensures SumOf(a + b, f) == SumOf(a, f) + SumOf(b, f)
  {
    if |a| == 0 {
      assert a + b == b;
    } else {
      assert (a + b)[1..] == a[1..] + b;
      SumOfAppend(a[1..], b, f);
    }
  }

  /** `s.filter(p)`. */
  function Filter<T>(s: seq<T>, p: T -> bool): (r: seq<T>)
    ensures |r| <= |s|
  {
    if |s| == 0 then []
    else (if p(s[0]) then [s[0]] else []) + Filter(s[1..], p)
  }

  /** What `Filter` keeps: exactly the members of `s` that satisfy `p`. */
  lemma {:induction false} FilterMembers<T>(s: seq<T>, p: T -> bool)
    ensures forall x :: x in Filter(s, p) <==> x in s && p(x)
  {
    if |s| > 0 {
      FilterMembers(s[1..], p);
      assert s == [s[0]] + s[1..];
    }
  }

  lemma {:induction false} FilterAppend<T>(a: seq<T>, b: seq<T>, p: T -> bool)
    ensures Filter(a + b, p) == Filter(a, p) + Filter(b, p)
  {
    if |a| == 0 {
      assert a + b == b;
    } else {
      assert (a + b)[0] == a[0];
      assert (a + b)[1..] == a[1..] + b;
      FilterAppend(a[1..], b, p);
      assert Filter(a + b, p) == (if p(a[0]) then [a[0]] else []) + Filter(a[1..] + b, p);
    }
  }

  /** `s.filter(p).length`. */
  function CountOf<T>(s: seq<T>, p: T -> bool): nat {
    |Filter(s, p)|
  }

  /** `s.findIndex(p)`, with `|s|` standing for "not found". */
  function FindFirst<T>(s: seq<T>, p: T -> bool): (r: nat)
    ensures r <= |s|
    ensures forall j :: 0 <= j < r ==> !p(s[j])
    ensures r < |s| ==> p(s[r])
  {
    if |s| == 0 then 0
    else if p(s[0]) then 0
    else 1 + FindFirst(s[1..], p)
  }

  /** `s.find(p)`: the first element satisfying `p`, if any. */
  function Find<T>(s: seq<T>, p: T -> bool): (r: Option<T>)
    ensures r.None? <==> forall j :: 0 <= j < |s| ==> !p(s[j])
    ensures r.Some? ==> exists i :: 0 <= i < |s| && s[i] == r.value && p(s[i]) && forall j :: 0 <= j < i ==> !p(s[j])
  {
    var k := FindFirst(s, p);
    if k < |s| then Some(s[k]) else None
  }

  /** Summing over a filtered sequence never exceeds the full sum. */
  lemma {:induction false} SumOfFilter<T>(s: seq<T>, p: T -> bool, f: T -> nat)
    ensures SumOf(Filter(s, p), f) <= SumOf(s, f)
  {
    if |s| > 0 {
      SumOfFilter(s[1..], p, f);
      var rest := Filter(s[1..], p);
      if p(s[0]) {
        assert Filter(s, p) == [s[0]] + rest;
        assert ([s[0]] + rest)[0] == s[0];
        assert ([s[0]] + rest)[1..] == rest;
        assert SumOf(Filter(s, p), f) == f(s[0]) + SumOf(rest, f);
      } else {
        assert Filter(s, p) == rest;
      }
    }
  }

  /** A pointwise bound carries over to the sums. */
  lemma {:induction false} SumOfLe<T>(s: seq<T>, f: T -> nat, g: T -> nat)
    requires forall i :: 0 <= i < |s| ==> f(s[i]) <= g(s[i])
    ensures SumOf(s, f) <= SumOf(s, g)
  {
    if |s| > 0 {
      SumOfLe(s[1..], f, g);
    }
  }

  /** Decimal rendering of a natural number, as `String(n)` gives it. */
  function NatToString(n: nat): (s: string)
    ensures |s| > 0
    ensures forall i :: 0 <= i < |s| ==> '0' <= s[i] <= '9'
  {
    var d := ['0', '1', '2', '3', '4', '5', '6', '7', '8', '9'];
    if n < 10 then [d[n]] else NatToString(n / 10) + [d[n % 10]]
  }
}

=== FILE: request_log.dfy ===
/** The search request log of `searchRequestLog.js` (and its copy
    `api/searchRequestLog.js`): one diagnostic entry per search, newest
    first, at most `LogCap` entries, plus listing and aggregate statistics.
    The backing file is `Option<seq<LogEntry>>` (None when missing or
    unparseable); the clock, the day a timestamp falls on (`dayOf`) and the
    case mapping of `toLowerCase` (`fold`) are parameters. */
module RequestLog {
  import opened Base
  import opened Videos
  import opened Sorting

  /** How many entries the log keeps. */
  const LogCap: nat := 500
  /** Threshold recorded when none (or 0) was given: one hundred million. */
  const DefaultThreshold: nat := 100000000
  /** Result count recorded when none (or 0) was given. */
  const DefaultMaxResults: nat := 50
  /** Source recorded when none was given. */
  const DefaultSource: string := "web"
  /** How many of the most frequent queries the statistics list. */
  const TopQueryLimit: nat := 10

  /** The unit the human-readable threshold is written in: 億 (10^8),
      萬 (10^4), or the plain number. */
  datatype Magnitude = Yi | Wan | Plain

  /** The argument of `logSearchRequest`; None is a missing field. */
  datatype LogRequest = LogRequest(
    query: Option<string>,
    maxResults: Option<nat>,
    requestedResults: Option<nat>,
    searchRequests: Option<nat>,
    videoRequests: Option<nat>,
    usedPagination: bool,
    pageTokens: seq<string>,
    rawCount: Option<nat>,
    filteredCount: Option<nat>,
    minViewCount: Option<nat>,
    topVideo: Option<TopVideo>,
    averageViewCount: Option<nat>,
    source: Option<string>,
    historyId: Option<string>)

  /** One stored entry (the nested objects of the source flattened). */
  datatype LogEntry = LogEntry(
    id: string,
    timestamp: string,
    date: string,
    time: string,
    query: string,
    maxResults: nat,
    requestedResults: nat,
    searchRequests: nat,
    videoRequests: nat,
    totalRequests: nat,
    usedPagination: bool,
    pageTokens: seq<string>,
    rawCount: nat,
    filteredCount: nat,
    minViewCount: nat,
    magnitude: Magnitude,
    hasResults: bool,
    topVideo: Option<TopVideo>,
    averageViewCount: nat,
    source: string,
    historyId: Option<string>)

  type LogFile = Option<seq<LogEntry>>

  /** `filterRate`: "0%" when nothing was fetched, otherwise the percentage
      of `filtered` over `raw` (its decimal rendering is not modelled). */
  datatype FilterRate = ZeroRate | Percentage(filtered: nat, raw: nat)

  datatype QueryCount = QueryCount(query: string, count: nat)

  datatype Summary = Summary(
    totalSearches: nat,
    todaySearches: nat,
    totalApiRequests: nat,
    todayApiRequests: nat,
    totalRawResults: nat,
    totalFilteredResults: nat,
    paginationUsed: nat,
    filterRate: FilterRate)

  datatype Statistics = Statistics(summary: Summary, topQueries: seq<QueryCount>)

  /** `readLog`: the stored entries, or none. */
  function ReadLog(file: LogFile): seq<LogEntry> {
    file.GetOr([])
  }

  /** The unit the threshold description uses. */
  function MagnitudeOf(minView: nat): (m: Magnitude)
    ensures m == Yi <==> minView >= 100000000
    ensures m == Wan <==> 10000 <= minView < 100000000
    ensures m == Plain <==> minView < 10000
  {
    if minView >= 100000000 then Yi
    else if minView >= 10000 then Wan
    else Plain
  }

  /** The entry `logSearchRequest` builds, with its `||` defaults. */
  function BuildEntry(clock: Clock, d: LogRequest): (e: LogEntry)
    ensures e.totalRequests == e.searchRequests + e.videoRequests
    ensures e.hasResults <==> e.filteredCount > 0
    ensures e.minViewCount > 0 && e.maxResults > 0 && e.requestedResults > 0
    ensures e.minViewCount == (if d.minViewCount.Some? && d.minViewCount.value > 0 then d.minViewCount.value else DefaultThreshold)
    ensures e.magnitude == MagnitudeOf(e.minViewCount)
    ensures e.maxResults == (if d.maxResults.Some? && d.maxResults.value > 0 then d.maxResults.value else DefaultMaxResults)
    ensures e.requestedResults == (if d.requestedResults.Some? && d.requestedResults.value > 0 then d.requestedResults.value else DefaultMaxResults)
    ensures e.query == (if d.query.Some? then d.query.value else "")
    ensures e.rawCount == d.rawCount.GetOr(0) && e.filteredCount == d.filteredCount.GetOr(0)
    ensures e.searchRequests == d.searchRequests.GetOr(0) && e.videoRequests == d.videoRequests.GetOr(0)
    ensures (Truthy(d.source) ==> e.source == d.source.value) && (!Truthy(d.source) ==> e.source == DefaultSource)
    ensures e.averageViewCount == d.averageViewCount.GetOr(0)
    ensures e.topVideo == d.topVideo && e.pageTokens == d.pageTokens && e.usedPagination == d.usedPagination
    ensures e.historyId == (if Truthy(d.historyId) then d.historyId else None)
    ensures e.id == clock.millis && e.timestamp == clock.iso
  {
    var minView := NatOr(d.minViewCount, DefaultThreshold);
    var searches := NatOr(d.searchRequests, 0);
    var videos := NatOr(d.videoRequests, 0);
    var filtered := NatOr(d.filteredCount, 0);
    LogEntry(
      clock.millis, clock.iso, clock.localDate, clock.localTime,
      StrOr(d.query, ""), NatOr(d.maxResults, DefaultMaxResults), NatOr(d.requestedResults, DefaultMaxResults),
      searches, videos, searches + videos, d.usedPagination, d.pageTokens,
      NatOr(d.rawCount, 0), filtered, minView, MagnitudeOf(minView),
      filtered > 0, d.topVideo, NatOr(d.averageViewCount, 0),
      StrOr(d.source, DefaultSource), if Truthy(d.historyId) then d.historyId else None)
  }

  /** `logSearchRequest`: the list written back after inserting the new entry
      at the front and truncating to `LogCap`. */
  function LogSearchRequest(file: LogFile, clock: Clock, d: LogRequest): (r: seq<LogEntry>)
    ensures var logs := ReadLog(file);
      && |r| == Min(|logs| + 1, LogCap)
      && r[0] == BuildEntry(clock, d)
      && r[1..] == logs[..|r| - 1]
  {
    Take([BuildEntry(clock, d)] + ReadLog(file), LogCap)
  }

  /** `clearLog`: the file is removed. */
  function ClearLog(): (file: LogFile)
    ensures ReadLog(file) == []
  {
    None
  }

  /** Whether an entry's query contains the folded search text. */
  predicate QueryMatches(e: LogEntry, text: string, fold: string -> string) {
    Contains(fold(e.query), fold(text))
  }

  /** The filter `getLogs` applies for a search text. */
  function Matching(text: string, fold: string -> string): LogEntry -> bool {
    (e: LogEntry) => QueryMatches(e, text, fold)
  }

  /** `getLogs`: entries whose query contains `query` (ignoring case) when a
      non-empty query is given, all entries otherwise; then the first `limit`. */
  function GetLogs(file: LogFile, limit: nat, query: Option<string>, fold: string -> string): (r: seq<LogEntry>)
    ensures |r| <= limit
    ensures forall e :: e in r ==> e in ReadLog(file)
    ensures Truthy(query) ==> forall e :: e in r ==> QueryMatches(e, query.value, fold)
    ensures Truthy(query) ==> r == Take(Filter(ReadLog(file), Matching(query.value, fold)), limit)
    ensures !Truthy(query) ==> r == Take(ReadLog(file), limit)
  {
    var logs := ReadLog(file);
    if Truthy(query) then
      var matching := Filter(logs, Matching(query.value, fold));
      FilterMembers(logs, Matching(query.value, fold));
      Take(matching, limit)
    else
      Take(logs, limit)
  }

  /** When fewer entries match than the limit allows, the listing misses none
      of them. */
  lemma GetLogsComplete(file: LogFile, limit: nat, text: string, fold: string -> string, e: LogEntry)
    requires text != ""
    requires e in ReadLog(file) && QueryMatches(e, text, fold)
    requires CountOf(ReadLog(file), Matching(text, fold)) <= limit
    ensures e in GetLogs(file, limit, Some(text), fold)
  {
    FilterMembers(ReadLog(file), Matching(text, fold));
  }

  // ---- the query tally behind `topQueries` -------------------------------

  function QueriesOf(t: seq<QueryCount>): (r: seq<string>)
    ensures |r| == |t|
    ensures forall i :: 0 <= i < |t| ==> r[i] == t[i].query
  {
    if |t| == 0 then [] else [t[0].query] + QueriesOf(t[1..])
  }

  /** No query is listed twice. */
  predicate DistinctQueries(t: seq<QueryCount>) {
    forall i, j :: 0 <= i < j < |t| ==> t[i].query != t[j].query
  }

  /** How often `q` occurs in `qs`. */
  function Occurrences(qs: seq<string>, q: string): nat {
    if |qs| == 0 then 0
    else Occurrences(qs[..|qs| - 1], q) + (if qs[|qs| - 1] == q then 1 else 0)
  }

  lemma {:induction false} OccurrencesZero(qs: seq<string>, q: string)
    ensures Occurrences(qs, q) == 0 <==> q !in qs
  {
    if |qs| > 0 {
      OccurrencesZero(qs[..|qs| - 1], q);
      assert qs == qs[..|qs| - 1] + [qs[|qs| - 1]];
    }
  }

  /** One step of `queryCounts[q] = (queryCounts[q] || 0) + 1`: bump the
      count of `q`, or add it with count 1 after all existing keys. */
  function Bump(t: seq<QueryCount>, q: string): (r: seq<QueryCount>)
    ensures |r| == |t| + (if q in QueriesOf(t) then 0 else 1)
    ensures forall i :: 0 <= i < |t| ==> r[i].query == t[i].query
    ensures q !in QueriesOf(t) ==> r[|t|] == QueryCount(q, 1)
  {
    if |t| == 0 then [QueryCount(q, 1)]
    else
      if t[0].query == q then
        var r := [t[0].(count := t[0].count + 1)] + t[1..];
        assert forall i :: 1 <= i < |t| ==> r[i] == t[i];
        r
      else
        var rest := Bump(t[1..], q);
        var r := [t[0]] + rest;
        assert forall i :: 1 <= i < |r| ==> r[i] == rest[i - 1];
        assert forall i :: 1 <= i < |t| ==> t[1..][i - 1] == t[i];
        r
  }

  /** With every query listed once, bumping `q` adds one to its count and
      leaves every other count as it was. */
  lemma {:induction false} BumpCounts(t: seq<QueryCount>, q: string)
    requires DistinctQueries(t)
    ensures forall i :: 0 <= i < |t| ==> Bump(t, q)[i].count == t[i].count + (if t[i].query == q then 1 else 0)
  {
    if |t| > 0 {
      if t[0].query == q {
        BumpAtHead(t, q);
      } else {
        DistinctTail(t);
        BumpCounts(t[1..], q);
        BumpPastHead(t, q);
      }
    }
  }

  /** When the first key is `q`, only its count moves, since no later key is `q`. */
  lemma BumpAtHead(t: seq<QueryCount>, q: string)
    requires DistinctQueries(t) && |t| > 0 && t[0].query == q
    ensures forall i :: 0 <= i < |t| ==> Bump(t, q)[i].count == t[i].count + (if t[i].query == q then 1 else 0)
  {
    var r := Bump(t, q);
    assert r == [t[0].(count := t[0].count + 1)] + t[1..];
    forall i | 1 <= i < |t|
      ensures r[i].count == t[i].count + (if t[i].query == q then 1 else 0)
    {
      assert t[0].query != t[i].query;
      assert r[i] == t[i];
    }
  }

  /** The tail of a table without repeated keys has none either. */
  lemma DistinctTail(t: seq<QueryCount>)
    requires DistinctQueries(t) && |t| > 0
    ensures DistinctQueries(t[1..])
  {
    var tail := t[1..];
    forall i, j | 0 <= i < j < |tail|
      ensures tail[i].query != tail[j].query
    {
      assert tail[i] == t[i + 1] && tail[j] == t[j + 1];
    }
  }

  /** When the first key is not `q`, the counts move as they do in the tail. */
  lemma BumpPastHead(t: seq<QueryCount>, q: string)
    requires |t| > 0 && t[0].query != q
    requires forall i :: 0 <= i < |t| - 1 ==> Bump(t[1..], q)[i].count == t[1..][i].count + (if t[1..][i].query == q then 1 else 0)
    ensures forall i :: 0 <= i < |t| ==> Bump(t, q)[i].count == t[i].count + (if t[i].query == q then 1 else 0)
  {
    var r := Bump(t, q);
    var rest := Bump(t[1..], q);
    assert r[0] == t[0];
    forall i | 1 <= i < |t|
      ensures r[i].count == t[i].count + (if t[i].query == q then 1 else 0)
    {
      assert r[i] == rest[i - 1];
      assert t[1..][i - 1] == t[i];
    }
  }

  /** Bumping keeps every query listed once. */
  lemma BumpDistinct(t: seq<QueryCount>, q: string)
    requires DistinctQueries(t)
    ensures DistinctQueries(Bump(t, q))
  {
    var r := Bump(t, q);
    forall i, j | 0 <= i < j < |r|
      ensures r[i].query != r[j].query
    {
      if j == |t| {
        assert q !in QueriesOf(t);
        assert QueriesOf(t)[i] == t[i].query;
      }
    }
  }

  /** `queryCounts` as `Object.entries` lists it: every query once, in the
      order of first occurrence, with its count. */
  function Tally(qs: seq<string>): (t: seq<QueryCount>)
    ensures DistinctQueries(t)
  {
    if |qs| == 0 then []
    else
      BumpDistinct(Tally(qs[..|qs| - 1]), qs[|qs| - 1]);
      Bump(Tally(qs[..|qs| - 1]), qs[|qs| - 1])
  }

  /** The tally lists each query of `qs` exactly once, with the number of
      times it occurs. */
  lemma {:induction false} TallyCorrect(qs: seq<string>)
    ensures forall q :: q in QueriesOf(Tally(qs)) <==> q in qs
    ensures forall i :: 0 <= i < |Tally(qs)| ==> Tally(qs)[i].count == Occurrences(qs, Tally(qs)[i].query)
  {
    if |qs| > 0 {
      var init := qs[..|qs| - 1];
      TallyCorrect(init);
      TallyStep(qs, Tally(init));
      assert Tally(qs) == Bump(Tally(init), qs[|qs| - 1]);
    }
  }

  /** The inductive step of `TallyCorrect`: `t` tallies all but the last
      query of `qs`, and bumping that query tallies `qs`. */
  lemma TallyStep(qs: seq<string>, t: seq<QueryCount>)
    requires |qs| > 0
    requires DistinctQueries(t)
    requires forall x :: x in QueriesOf(t) <==> x in qs[..|qs| - 1]
    requires forall i :: 0 <= i < |t| ==> t[i].count == Occurrences(qs[..|qs| - 1], t[i].query)
    ensures var r := Bump(t, qs[|qs| - 1]);
      && (forall x :: x in QueriesOf(r) <==> x in qs)
      && (forall i :: 0 <= i < |r| ==> r[i].count == Occurrences(qs, r[i].query))
  {
    var init := qs[..|qs| - 1];
    var q := qs[|qs| - 1];
    var r := Bump(t, q);
    assert qs == init + [q];
    BumpCounts(t, q);
    forall i | 0 <= i < |r|
      ensures r[i].count == Occurrences(qs, r[i].query)
    {
      if i == |t| {
        assert q !in init;
        OccurrencesZero(init, q);
      } else {
        assert r[i].query == t[i].query;
      }
    }
    BumpQueries(t, q);
  }

  /** Bumping lists exactly the queries listed before, plus `q`. */
  lemma {:induction false} BumpQueries(t: seq<QueryCount>, q: string)
    ensures forall x :: x in QueriesOf(Bump(t, q)) <==> x in QueriesOf(t) || x == q
  {
    var r := Bump(t, q);
    if |t| > 0 {
      assert QueriesOf(r) == [r[0].query] + QueriesOf(r[1..]);
      if t[0].query == q {
        assert r[1..] == t[1..];
      } else {
        assert r[1..] == Bump(t[1..], q);
        BumpQueries(t[1..], q);
      }
    }
  }

  // ---- `queryCounts` as the plain object the code writes to ---------------

  /** On a plain `{}` this key names the inherited `__proto__` accessor:
      assigning a string to it is ignored and adds no key. */
  const ProtoKey: string := "__proto__"

  /** The methods a plain `{}` inherits from Object.prototype: for these
      keys `queryCounts[q] || 0` reads the method, and `+ 1` turns it into
      text. */
  const InheritedMethods: set<string> := {"constructor", "hasOwnProperty", "isPrototypeOf",
    "propertyIsEnumerable", "toLocaleString", "toString", "valueOf",
    "__defineGetter__", "__defineSetter__", "__lookupGetter__", "__lookupSetter__"}

  /** A key every plain object treats as its own fresh property. */
  predicate OrdinaryKey(q: string) {
    q != ProtoKey && q !in InheritedMethods
  }

  /** A value stored in `queryCounts`: a count, or the text that adding 1
      to a method (or to earlier text) makes. */
  datatype ObjectCount = Count(n: nat) | Text

  datatype ObjectEntry = ObjectEntry(key: string, value: ObjectCount)

  function KeysOf(t: seq<ObjectEntry>): (r: seq<string>)
    ensures |r| == |t|
    ensures forall i :: 0 <= i < |t| ==> r[i] == t[i].key
  {
    if |t| == 0 then [] else [t[0].key] + KeysOf(t[1..])
  }

  /** `(v || 0) + 1` on a stored value: numbers count up, text stays text. */
  function PlusOne(v: ObjectCount): (r: ObjectCount)
    ensures r.Count? <==> v.Count?
    ensures v.Count? ==> r.n == v.n + 1
  {
    match v
    case Count(n) => Count(n + 1)
    case Text => Text
  }

  /** The value a new key gets: 1, or text when the key names an inherited
      method. */
  function FreshValue(q: string): ObjectCount {
    if q in InheritedMethods then Text else Count(1)
  }

  /** `[x] + s` read past its first element is `s`. */
  lemma ConsIndex<T>(x: T, s: seq<T>)
    ensures forall i :: 1 <= i <= |s| ==> ([x] + s)[i] == s[i - 1]
  {
  }

  /** `s[1..]` read one place earlier is `s`. */
  lemma TailIndex<T>(s: seq<T>)
    requires |s| > 0
    ensures forall i :: 1 <= i < |s| ==> s[1..][i - 1] == s[i]
  {
  }

  /** `queryCounts[q] = (queryCounts[q] || 0) + 1` for a key the assignment
      stores as an own property: an own key counts up, and a new key is
      added last with `FreshValue(q)`. */
  function AssignOwn(t: seq<ObjectEntry>, q: string): (r: seq<ObjectEntry>)
    ensures |r| == |t| + (if q in KeysOf(t) then 0 else 1)
    ensures forall i :: 0 <= i < |t| ==> r[i].key == t[i].key
    ensures q !in KeysOf(t) ==> r[|t|] == ObjectEntry(q, FreshValue(q))
  {
    if |t| == 0 then [ObjectEntry(q, FreshValue(q))]
    else if t[0].key == q then
      ConsIndex(t[0].(value := PlusOne(t[0].value)), t[1..]);
      TailIndex(t);
      [t[0].(value := PlusOne(t[0].value))] + t[1..]
    else
      var rest := AssignOwn(t[1..], q);
      ConsIndex(t[0], rest);
      TailIndex(t);
      [t[0]] + rest
  }

  /** One step of `queryCounts[q] = (queryCounts[q] || 0) + 1` on a plain
      object: `__proto__` is ignored, an own key counts up, and a new key
      starts at 1, or at text when it names an inherited method. */
  function BumpObject(t: seq<ObjectEntry>, q: string): (r: seq<ObjectEntry>)
    ensures q == ProtoKey ==> r == t
    ensures q != ProtoKey ==> |r| == |t| + (if q in KeysOf(t) then 0 else 1)
    ensures forall i :: 0 <= i < |t| ==> r[i].key == t[i].key
    ensures q != ProtoKey && q !in KeysOf(t) ==> r[|t|] == ObjectEntry(q, FreshValue(q))
  {
    if q == ProtoKey then t else AssignOwn(t, q)
  }

  /** `queryCounts` after the `forEach`, as the code computes it. */
  function ObjectTally(qs: seq<string>): (t: seq<ObjectEntry>)
    ensures |t| <= |qs|
  {
    if |qs| == 0 then [] else BumpObject(ObjectTally(qs[..|qs| - 1]), qs[|qs| - 1])
  }

  /** No key is listed twice. */
  predicate DistinctKeys(o: seq<ObjectEntry>) {
    forall i, j :: 0 <= i < j < |o| ==> o[i].key != o[j].key
  }

  lemma BumpObjectDistinct(o: seq<ObjectEntry>, q: string)
    requires DistinctKeys(o)
    ensures DistinctKeys(BumpObject(o, q))
  {
    var r := BumpObject(o, q);
    forall i, j | 0 <= i < j < |r|
      ensures r[i].key != r[j].key
    {
      if j == |o| {
        assert q !in KeysOf(o);
        assert KeysOf(o)[i] == o[i].key;
      }
    }
  }

  /** With every key listed once, a step adds one to the value under `q`
      (text stays text) and leaves every other value as it was; a step on
      `__proto__` changes nothing. */
  lemma BumpObjectValues(o: seq<ObjectEntry>, q: string)
    requires DistinctKeys(o)
    ensures forall i :: 0 <= i < |o| ==>
      BumpObject(o, q)[i].value == (if o[i].key == q && q != ProtoKey then PlusOne(o[i].value) else o[i].value)
  {
    if q != ProtoKey {
      AssignOwnValues(o, q);
    }
  }

  lemma {:induction false} AssignOwnValues(o: seq<ObjectEntry>, q: string)
    requires DistinctKeys(o)
    ensures forall i :: 0 <= i < |o| ==>
      AssignOwn(o, q)[i].value == (if o[i].key == q then PlusOne(o[i].value) else o[i].value)
  {
    if |o| > 0 {
      if o[0].key == q {
        ValuesAtHead(o, q);
      } else {
        assert DistinctKeys(o[1..]) by {
          assert forall i :: 0 <= i < |o| - 1 ==> o[1..][i] == o[i + 1];
        }
        AssignOwnValues(o[1..], q);
        ValuesPastHead(o, q);
      }
    }
  }

  /** The step of `AssignOwnValues` when the first key is `q`. */
  lemma ValuesAtHead(o: seq<ObjectEntry>, q: string)
    requires DistinctKeys(o) && |o| > 0 && o[0].key == q
    ensures forall i :: 0 <= i < |o| ==>
      AssignOwn(o, q)[i].value == (if o[i].key == q then PlusOne(o[i].value) else o[i].value)
  {
    var r := AssignOwn(o, q);
    assert r[0].value == PlusOne(o[0].value);
    forall i | 1 <= i < |o|
      ensures r[i].value == (if o[i].key == q then PlusOne(o[i].value) else o[i].value)
    {
      assert o[0].key != o[i].key;
      assert r[i] == o[i];
    }
  }

  /** The step of `AssignOwnValues` past a first key other than `q`. */
  lemma ValuesPastHead(o: seq<ObjectEntry>, q: string)
    requires |o| > 0 && o[0].key != q
    requires forall i :: 0 <= i < |o| - 1 ==>
      AssignOwn(o[1..], q)[i].value == (if o[1..][i].key == q then PlusOne(o[1..][i].value) else o[1..][i].value)
    ensures forall i :: 0 <= i < |o| ==>
      AssignOwn(o, q)[i].value == (if o[i].key == q then PlusOne(o[i].value) else o[i].value)
  {
    var r := AssignOwn(o, q);
    var rest := AssignOwn(o[1..], q);
    assert r == [o[0]] + rest;
    ConsIndex(o[0], rest);
    TailIndex(o);
    forall i | 1 <= i < |o|
      ensures r[i].value == (if o[i].key == q then PlusOne(o[i].value) else o[i].value)
    {
      assert r[i] == rest[i - 1];
      assert o[1..][i - 1] == o[i];
    }
  }

  /** The keys after a step: the earlier keys, plus `q` unless it is `__proto__`. */
  lemma BumpObjectKeys(t: seq<ObjectEntry>, q: string)
    ensures forall x :: x in KeysOf(BumpObject(t, q)) <==> x in KeysOf(t) || (x == q && q != ProtoKey)
  {
    if q != ProtoKey {
      AssignOwnKeys(t, q);
    }
  }

  lemma {:induction false} AssignOwnKeys(t: seq<ObjectEntry>, q: string)
    ensures forall x :: x in KeysOf(AssignOwn(t, q)) <==> x in KeysOf(t) || x == q
  {
    var r := AssignOwn(t, q);
    if |t| > 0 {
      assert KeysOf(r) == [r[0].key] + KeysOf(r[1..]);
      if t[0].key == q {
        assert r[1..] == t[1..];
      } else {
        assert r[1..] == AssignOwn(t[1..], q);
        AssignOwnKeys(t[1..], q);
      }
    }
  }

  /** Every inherited-method key of the object holds text. */
  predicate InheritedAsText(t: seq<ObjectEntry>) {
    forall i :: 0 <= i < |t| && t[i].key in InheritedMethods ==> t[i].value == Text
  }

  /** A step keeps every inherited-method key at text, since text plus 1 is text. */
  lemma BumpObjectKeepsText(t: seq<ObjectEntry>, q: string)
    requires InheritedAsText(t)
    ensures InheritedAsText(BumpObject(t, q))
  {
    if q != ProtoKey {
      AssignOwnKeepsText(t, q);
    }
  }

  lemma {:induction false} AssignOwnKeepsText(t: seq<ObjectEntry>, q: string)
    requires InheritedAsText(t)
    ensures InheritedAsText(AssignOwn(t, q))
  {
    if |t| > 0 {
      var r := AssignOwn(t, q);
      if t[0].key == q {
        assert forall i :: 1 <= i < |t| ==> r[i] == t[i];
      } else {
        var rest := AssignOwn(t[1..], q);
        assert InheritedAsText(t[1..]) by {
          assert forall i :: 0 <= i < |t| - 1 ==> t[1..][i] == t[i + 1];
        }
        AssignOwnKeepsText(t[1..], q);
        assert forall i :: 1 <= i < |r| ==> r[i] == rest[i - 1];
      }
    }
  }

  /** What the code's object holds: every searched query except `__proto__`
      is a key, and each inherited method name holds text instead of a count. */
  lemma {:induction false} ObjectTallyAsWritten(qs: seq<string>)
    ensures forall x :: x in KeysOf(ObjectTally(qs)) <==> x in qs && x != ProtoKey
    ensures InheritedAsText(ObjectTally(qs))
  {
    if |qs| > 0 {
      var init := qs[..|qs| - 1];
      ObjectTallyAsWritten(init);
      BumpObjectKeys(ObjectTally(init), qs[|qs| - 1]);
      BumpObjectKeepsText(ObjectTally(init), qs[|qs| - 1]);
      assert qs == init + [qs[|qs| - 1]];
    }
  }

  /** Outside the inherited names the code counts correctly: every key
      that is neither an inherited method nor `__proto__` is listed once,
      with the number of times it was searched. */
  lemma {:induction false} ObjectTallyCounts(qs: seq<string>)
    ensures DistinctKeys(ObjectTally(qs))
    ensures forall i :: 0 <= i < |ObjectTally(qs)| && OrdinaryKey(ObjectTally(qs)[i].key) ==>
      ObjectTally(qs)[i].value == Count(Occurrences(qs, ObjectTally(qs)[i].key))
  {
    if |qs| > 0 {
      var init := qs[..|qs| - 1];
      ObjectTallyCounts(init);
      ObjectTallyAsWritten(init);
      ObjectCountStep(qs, ObjectTally(init));
    }
  }

  /** The inductive step of `ObjectTallyCounts`. */
  lemma ObjectCountStep(qs: seq<string>, o: seq<ObjectEntry>)
    requires |qs| > 0
    requires DistinctKeys(o)
    requires forall x :: x in KeysOf(o) <==> x in qs[..|qs| - 1] && x != ProtoKey
    requires forall i :: 0 <= i < |o| && OrdinaryKey(o[i].key) ==>
      o[i].value == Count(Occurrences(qs[..|qs| - 1], o[i].key))
    ensures var r := BumpObject(o, qs[|qs| - 1]);
      && DistinctKeys(r)
      && (forall i :: 0 <= i < |r| && OrdinaryKey(r[i].key) ==> r[i].value == Count(Occurrences(qs, r[i].key)))
  {
    var init := qs[..|qs| - 1];
    var q := qs[|qs| - 1];
    var r := BumpObject(o, q);
    BumpObjectDistinct(o, q);
    BumpObjectValues(o, q);
    forall i | 0 <= i < |r| && OrdinaryKey(r[i].key)
      ensures r[i].value == Count(Occurrences(qs, r[i].key))
    {
      if i == |o| {
        assert q !in init;
        NewKeyCounted(qs);
        assert FreshValue(q) == Count(1);
      } else {
        OldKeyCounted(qs, o[i], r[i]);
      }
    }
  }

  /** A query not seen before the last position occurs exactly once. */
  lemma NewKeyCounted(qs: seq<string>)
    requires |qs| > 0 && qs[|qs| - 1] !in qs[..|qs| - 1]
    ensures Occurrences(qs, qs[|qs| - 1]) == 1
  {
    OccurrencesZero(qs[..|qs| - 1], qs[|qs| - 1]);
  }

  /** A key already present is counted one more time exactly when it is the
      last query. */
  lemma OldKeyCounted(qs: seq<string>, before: ObjectEntry, after: ObjectEntry)
    requires |qs| > 0
    requires before.value == Count(Occurrences(qs[..|qs| - 1], before.key))
    requires after.key == before.key
    requires after.value == (if before.key == qs[|qs| - 1] then PlusOne(before.value) else before.value)
    ensures after.value == Count(Occurrences(qs, after.key))
  {
  }

  /** Where the code and `Tally` part: one search for "constructor" is
      counted 1 by `Tally` and text by the object, and one search for
      "__proto__" is counted 1 by `Tally` and is no key of the object. */
  lemma InheritedKeysDiverge()
    ensures Tally(["constructor"]) == [QueryCount("constructor", 1)]
    ensures ObjectTally(["constructor"]) == [ObjectEntry("constructor", Text)]
    ensures Tally([ProtoKey]) == [QueryCount(ProtoKey, 1)]
    ensures ObjectTally([ProtoKey]) == []
  {
    assert ["constructor"][..0] == [];
    assert [ProtoKey][..0] == [];
  }

  function CountKey(c: QueryCount): nat {
    c.count
  }

  /** The folded query of every entry, in log order. */
  function FoldedQueries(logs: seq<LogEntry>, fold: string -> string): (qs: seq<string>)
    ensures |qs| == |logs|
    ensures forall i :: 0 <= i < |logs| ==> qs[i] == fold(logs[i].query)
  {
    seq(|logs|, i requires 0 <= i < |logs| => fold(logs[i].query))
  }

  /** `topQueries`: the tally sorted by count (stable), first ten. */
  function TopQueries(logs: seq<LogEntry>, fold: string -> string): seq<QueryCount> {
    Take(SortDesc(Tally(FoldedQueries(logs, fold)), CountKey), TopQueryLimit)
  }

  function TotalRequestsOf(e: LogEntry): nat { e.totalRequests }
  function RawCountOf(e: LogEntry): nat { e.rawCount }
  function FilteredCountOf(e: LogEntry): nat { e.filteredCount }
  predicate Paginated(e: LogEntry) { e.usedPagination }

  /** Whether an entry was logged on `today`, as `dayOf` reads its timestamp. */
  function LoggedOn(today: string, dayOf: string -> string): LogEntry -> bool {
    (e: LogEntry) => dayOf(e.timestamp) == today
  }

  /** The `summary` part of `getStatistics` for the given entries. */
  function StatsSummary(logs: seq<LogEntry>, today: string, dayOf: string -> string): (s: Summary)
    ensures var todayLogs := Filter(logs, LoggedOn(today, dayOf));
      && s.totalSearches == |logs|
      && s.todaySearches == |todayLogs|
      && s.totalApiRequests == SumOf(logs, TotalRequestsOf)
      && s.todayApiRequests == SumOf(todayLogs, TotalRequestsOf)
      && s.totalRawResults == SumOf(logs, RawCountOf)
      && s.totalFilteredResults == SumOf(logs, FilteredCountOf)
      && s.paginationUsed == CountOf(logs, Paginated)
    ensures s.todaySearches <= s.totalSearches
    ensures s.todayApiRequests <= s.totalApiRequests
    ensures s.paginationUsed <= s.totalSearches
    ensures s.filterRate == ZeroRate <==> s.totalRawResults == 0
    ensures s.filterRate.Percentage? ==> s.filterRate == Percentage(s.totalFilteredResults, s.totalRawResults)
  {
    var todayLogs := Filter(logs, LoggedOn(today, dayOf));
    SumOfFilter(logs, LoggedOn(today, dayOf), TotalRequestsOf);
    var raw := SumOf(logs, RawCountOf);
    var filtered := SumOf(logs, FilteredCountOf);
    Summary(
      |logs|,
      |todayLogs|,
      SumOf(logs, TotalRequestsOf),
      SumOf(todayLogs, TotalRequestsOf),
      raw,
      filtered,
      CountOf(logs, Paginated),
      if raw > 0 then Percentage(filtered, raw) else ZeroRate)
  }

  /** `getStatistics`: the summary of the stored entries and their most
      frequent queries. */
  function GetStatistics(file: LogFile, today: string, dayOf: string -> string, fold: string -> string): (s: Statistics)
    ensures var logs := ReadLog(file);
      var todayLogs := Filter(logs, LoggedOn(today, dayOf));
      && s.summary == StatsSummary(logs, today, dayOf)
      && s.summary.totalSearches == |logs|
      && s.summary.todaySearches == |todayLogs|
      && s.summary.totalApiRequests == SumOf(logs, TotalRequestsOf)
      && s.summary.todayApiRequests == SumOf(todayLogs, TotalRequestsOf)
      && s.summary.totalRawResults == SumOf(logs, RawCountOf)
      && s.summary.totalFilteredResults == SumOf(logs, FilteredCountOf)
      && s.summary.paginationUsed == CountOf(logs, Paginated)
      && s.topQueries == TopQueries(logs, fold)
    ensures s.summary.todaySearches <= s.summary.totalSearches
    ensures s.summary.todayApiRequests <= s.summary.totalApiRequests
    ensures s.summary.paginationUsed <= s.summary.totalSearches
    ensures s.summary.filterRate == ZeroRate <==> s.summary.totalRawResults == 0
    ensures s.summary.filterRate.Percentage? ==>
      s.summary.filterRate == Percentage(s.summary.totalFilteredResults, s.summary.totalRawResults)
  {
    var logs := ReadLog(file);
    Statistics(StatsSummary(logs, today, dayOf), TopQueries(logs, fold))
  }

  /** An empty or missing log has all figures zero, the "0%" filter rate
      and no top queries. */
  lemma StatisticsOfEmpty(today: string, dayOf: string -> string, fold: string -> string)
    ensures GetStatistics(None, today, dayOf, fold) == Statistics(Summary(0, 0, 0, 0, 0, 0, 0, ZeroRate), [])
  {
    assert Tally([]) == [];
  }

  /** The ten listed queries really are the most frequent ones: at most ten,
      no query twice, counts non-increasing and equal to the number of
      entries whose folded query it is, and any query left out is no more
      frequent than the last one listed. */
  lemma TopQueriesCorrect(file: LogFile, today: string, dayOf: string -> string, fold: string -> string)
    ensures var top := GetStatistics(file, today, dayOf, fold).topQueries;
      var qs := FoldedQueries(ReadLog(file), fold);
      && |top| <= TopQueryLimit
      && Descending(top, CountKey)
      && DistinctQueries(top)
      && (forall i :: 0 <= i < |top| ==> top[i].query in qs && top[i].count == Occurrences(qs, top[i].query))
      && (forall q :: q in qs && q !in QueriesOf(top) ==>
            |top| == TopQueryLimit && Occurrences(qs, q) <= top[TopQueryLimit - 1].count)
  {
    TopQueriesRanked(ReadLog(file), fold);
  }

  /** `TopQueriesCorrect` for a given list of entries. */
  lemma TopQueriesRanked(logs: seq<LogEntry>, fold: string -> string)
    ensures var top := TopQueries(logs, fold);
      var qs := FoldedQueries(logs, fold);
      && |top| <= TopQueryLimit
      && Descending(top, CountKey)
      && DistinctQueries(top)
      && (forall i :: 0 <= i < |top| ==> top[i].query in qs && top[i].count == Occurrences(qs, top[i].query))
      && (forall q :: q in qs && q !in QueriesOf(top) ==>
            |top| == TopQueryLimit && Occurrences(qs, q) <= top[TopQueryLimit - 1].count)
  {
    var qs := FoldedQueries(logs, fold);
    var t := Tally(qs);
    TallyCorrect(qs);
    var sorted := SortDesc(t, CountKey);
    var top := Take(sorted, TopQueryLimit);
    TopEntriesCounted(qs, t, sorted, top);
    TopEntriesDistinct(t, sorted, top);
    TopIsTop(qs, t, sorted, top);
  }

  lemma TopEntriesCounted(qs: seq<string>, t: seq<QueryCount>, sorted: seq<QueryCount>, top: seq<QueryCount>)
    requires forall q :: q in QueriesOf(t) <==> q in qs
    requires forall i :: 0 <= i < |t| ==> t[i].count == Occurrences(qs, t[i].query)
    requires multiset(sorted) == multiset(t)
    requires |top| <= |sorted| && top == sorted[..|top|]
    ensures forall i :: 0 <= i < |top| ==> top[i].query in qs && top[i].count == Occurrences(qs, top[i].query)
  {
    forall i | 0 <= i < |top|
      ensures top[i].query in qs && top[i].count == Occurrences(qs, top[i].query)
    {
      assert top[i] == sorted[i];
      assert sorted[i] in multiset(t);
      var k :| 0 <= k < |t| && t[k] == sorted[i];
      assert QueriesOf(t)[k] == top[i].query;
    }
  }

  lemma TopEntriesDistinct(t: seq<QueryCount>, sorted: seq<QueryCount>, top: seq<QueryCount>)
    requires DistinctQueries(t)
    requires multiset(sorted) == multiset(t)
    requires |top| <= |sorted| && top == sorted[..|top|]
    ensures DistinctQueries(top)
  {
    forall i, j | 0 <= i < j < |top|
      ensures top[i].query != top[j].query
    {
      DistinctAfterSort(t, sorted, i, j);
    }
  }

  lemma TopIsTop(qs: seq<string>, t: seq<QueryCount>, sorted: seq<QueryCount>, top: seq<QueryCount>)
    requires forall q :: q in QueriesOf(t) <==> q in qs
    requires forall i :: 0 <= i < |t| ==> t[i].count == Occurrences(qs, t[i].query)
    requires multiset(sorted) == multiset(t)
    requires Descending(sorted, CountKey)
    requires top == Take(sorted, TopQueryLimit)
    ensures forall q :: q in qs && q !in QueriesOf(top) ==>
      |top| == TopQueryLimit && Occurrences(qs, q) <= top[TopQueryLimit - 1].count
  {
    forall q | q in qs && q !in QueriesOf(top)
      ensures |top| == TopQueryLimit && Occurrences(qs, q) <= top[TopQueryLimit - 1].count
    {
      assert q in QueriesOf(t);
      var k :| 0 <= k < |t| && QueriesOf(t)[k] == q;
      assert t[k] in multiset(sorted);
      var j :| 0 <= j < |sorted| && sorted[j] == t[k];
      forall m | 0 <= m < |top|
        ensures top[m].query != q
      {
        assert QueriesOf(top)[m] == top[m].query;
      }
      assert sorted[j].query == q by {
        assert QueriesOf(t)[k] == t[k].query;
      }
      assert j >= |top| by {
        assert forall m :: 0 <= m < |top| ==> top[m] == sorted[m];
      }
      assert CountKey(sorted[TopQueryLimit - 1]) >= CountKey(sorted[j]);
    }
  }

  /** Sorting a tally with distinct queries keeps them distinct. */
  lemma DistinctAfterSort(t: seq<QueryCount>, sorted: seq<QueryCount>, i: nat, j: nat)
    requires DistinctQueries(t)
    requires multiset(sorted) == multiset(t)
    requires i < j < |sorted|
    ensures sorted[i].query != sorted[j].query
  {
    assert sorted[i] in multiset(t) && sorted[j] in multiset(t);
    var a :| 0 <= a < |t| && t[a] == sorted[i];
    var b :| 0 <= b < |t| && t[b] == sorted[j];
    if a == b {
      // the same tally entry cannot occupy two positions of `sorted`
      assert multiset(sorted)[t[a]] >= 2 by {
        var m := multiset(sorted);
        assert sorted == sorted[..j] + sorted[j..];
        assert sorted[i] in sorted[..j];
        assert sorted[j] in sorted[j..];
        assert multiset(sorted[..j])[t[a]] >= 1;
        assert multiset(sorted[j..])[t[a]] >= 1;
      }
      MultisetOfDistinct(t, a);
      assert false;
    }
  }

  /** In a tally with distinct queries every entry occurs once. */
  lemma {:induction false} MultisetOfDistinct(t: seq<QueryCount>, a: nat)
    requires DistinctQueries(t) && a < |t|
    ensures multiset(t)[t[a]] == 1
  {
    if a == 0 {
      assert t == [t[0]] + t[1..];
      assert forall k :: 0 <= k < |t[1..]| ==> t[1..][k].query != t[0].query;
      assert t[0] !in t[1..];
    } else {
      assert t == [t[0]] + t[1..];
      assert t[1..][a - 1] == t[a];
      MultisetOfDistinct(t[1..], a - 1);
      assert t[0] != t[a] by {
        assert t[0].query != t[a].query;
      }
    }
  }

  /** Logging one more search (below the cap) moves every total by exactly
      that entry's contribution. */
  lemma {:induction false} LogThenStatistics(file: LogFile, clock: Clock, d: LogRequest, dayOf: string -> string)
    requires |ReadLog(file)| < LogCap
    ensures var before := StatsSummary(ReadLog(file), clock.date, dayOf);
      var after := StatsSummary(LogSearchRequest(file, clock, d), clock.date, dayOf);
      var e := BuildEntry(clock, d);
      && after.totalSearches == before.totalSearches + 1
      && after.totalApiRequests == before.totalApiRequests + e.searchRequests + e.videoRequests
      && after.totalRawResults == before.totalRawResults + e.rawCount
      && after.totalFilteredResults == before.totalFilteredResults + e.filteredCount
      && after.paginationUsed == before.paginationUsed + (if e.usedPagination then 1 else 0)
  {
    var logs := ReadLog(file);
    var e := BuildEntry(clock, d);
    var logs' := LogSearchRequest(file, clock, d);
    assert logs' == [e] + logs;
    TotalsCons(e, logs);
  }

  /** Putting an entry in front of a log adds its figures to every total. */
  lemma TotalsCons(e: LogEntry, logs: seq<LogEntry>)
    ensures SumOf([e] + logs, TotalRequestsOf) == e.totalRequests + SumOf(logs, TotalRequestsOf)
    ensures SumOf([e] + logs, RawCountOf) == e.rawCount + SumOf(logs, RawCountOf)
    ensures SumOf([e] + logs, FilteredCountOf) == e.filteredCount + SumOf(logs, FilteredCountOf)
    ensures CountOf([e] + logs, Paginated) == CountOf(logs, Paginated) + (if e.usedPagination then 1 else 0)
  {
    assert ([e] + logs)[1..] == logs;
    assert Filter([e] + logs, Paginated) == (if e.usedPagination then [e] else []) + Filter(logs, Paginated);
  }

  /** Logging one more search (below the cap) counts it among today's
      searches and requests exactly when its timestamp falls on today. */
  lemma {:induction false} LogThenTodayStatistics(file: LogFile, clock: Clock, d: LogRequest, dayOf: string -> string)
    requires |ReadLog(file)| < LogCap
    ensures var before := StatsSummary(ReadLog(file), clock.date, dayOf);
      var after := StatsSummary(LogSearchRequest(file, clock, d), clock.date, dayOf);
      var e := BuildEntry(clock, d);
      && after.todaySearches == before.todaySearches + (if dayOf(clock.iso) == clock.date then 1 else 0)
      && after.todayApiRequests == before.todayApiRequests + (if dayOf(clock.iso) == clock.date then e.totalRequests else 0)
  {
    var logs := ReadLog(file);
    var e := BuildEntry(clock, d);
    var logs' := LogSearchRequest(file, clock, d);
    assert logs' == [e] + logs;
    TodayCons(e, logs, clock.date, dayOf);
  }

  /** Putting an entry in front of a log adds it to the day's entries
      exactly when it was logged on that day. */
  lemma TodayCons(e: LogEntry, logs: seq<LogEntry>, today: string, dayOf: string -> string)
    ensures var onDay := LoggedOn(today, dayOf);
      var added := if dayOf(e.timestamp) == today then 1 else 0;
      && |Filter([e] + logs, onDay)| == |Filter(logs, onDay)| + added
      && SumOf(Filter([e] + logs, onDay), TotalRequestsOf)
         == SumOf(Filter(logs, onDay), TotalRequestsOf) + (if added == 1 then e.totalRequests else 0)
  {
    var onDay := LoggedOn(today, dayOf);
    var rest := Filter(logs, onDay);
    assert ([e] + logs)[1..] == logs;
    assert Filter([e] + logs, onDay) == (if onDay(e) then [e] else []) + rest;
    if onDay(e) {
      assert ([e] + rest)[1..] == rest;
    } else {
      assert [] + rest == rest;
    }
  }

  /** Logging one more search into a full log drops the oldest entry: the
      number of searches stays at the cap, and every total moves by the new
      entry's contribution less the dropped entry's. */
  lemma {:induction false} LogThenStatisticsAtCap(file: LogFile, clock: Clock, d: LogRequest, dayOf: string -> string)
    requires |ReadLog(file)| == LogCap
    ensures var before := StatsSummary(ReadLog(file), clock.date, dayOf);
      var after := StatsSummary(LogSearchRequest(file, clock, d), clock.date, dayOf);
      var e := BuildEntry(clock, d);
      var dropped := ReadLog(file)[LogCap - 1];
      && after.totalSearches == before.totalSearches
      && after.totalApiRequests + dropped.totalRequests == before.totalApiRequests + e.totalRequests
      && after.totalRawResults + dropped.rawCount == before.totalRawResults + e.rawCount
      && after.totalFilteredResults + dropped.filteredCount == before.totalFilteredResults + e.filteredCount
  {
    var logs := ReadLog(file);
    var e := BuildEntry(clock, d);
    var kept := logs[..LogCap - 1];
    var dropped := logs[LogCap - 1];
    var logs' := LogSearchRequest(file, clock, d);
    assert logs' == [e] + kept;
    assert logs'[1..] == kept;
    assert logs == kept + [dropped];
    SumOfAppend(kept, [dropped], TotalRequestsOf);
    SumOfAppend(kept, [dropped], RawCountOf);
    SumOfAppend(kept, [dropped], FilteredCountOf);
  }

  /** When no entry reports more kept than fetched results, the overall
      filter rate is at most 100%. */
  lemma FilterRateAtMostAll(file: LogFile, today: string, dayOf: string -> string, fold: string -> string)
    requires forall i :: 0 <= i < |ReadLog(file)| ==> ReadLog(file)[i].filteredCount <= ReadLog(file)[i].rawCount
    ensures var s := GetStatistics(file, today, dayOf, fold).summary;
      s.totalFilteredResults <= s.totalRawResults
  {
    SumOfLe(ReadLog(file), FilteredCountOf, RawCountOf);
  }

  /** Log entries never exceed the cap after an insert. */
  lemma LogBounded(file: LogFile, clock: Clock, d: LogRequest)
    ensures |LogSearchRequest(file, clock, d)| <= LogCap
  {
  }
}

=== FILE: routes.dfy ===
/** The HTTP routes of `server.js` and `api/index.js` that do more than
    pass a stored value through: the search route (run the aggregator, save
    the results to the history unless deployed serverless, classify errors),
    the history list and the history replay. */
module Routes {
  import opened Base
  import opened Videos
  import UsageCounter
  import SearchHistory
  import RequestLog
  import Aggregator

  const QuotaStatus: int := 403
  const FallbackStatus: int := 500
  const UnknownError: string := "未知錯誤"
  /** Defaults of the search route's query parameters. */
  const DefaultQuery: string := ""
  const DefaultMaxResults: nat := 50
  const DefaultMinViewCount: nat := 100000000
  /** Default `limit` of the history list. */
  const DefaultHistoryLimit: nat := 50
  /** The value the frontend sends as id when it has none. */
  const UndefinedId: string := "undefined"

  /** Where the app runs: the local express server, or the serverless
      adapter with the platform's `VERCEL` and `VERCEL_ENV` variables. */
  datatype Deployment = Server | Serverless(vercel: Option<string>, vercelEnv: Option<string>)

  /** `isVercel` of `api/index.js`; the local server always saves history. */
  predicate OnVercel(d: Deployment) {
    d.Serverless? && (d.vercel == Some("1") || Truthy(d.vercelEnv))
  }

  /** The search route's query parameters, already parsed; None when absent. */
  datatype SearchParams = SearchParams(query: Option<string>, maxResults: Option<nat>, minViewCount: Option<nat>)

  /** The search route's answers: 200 with the videos, the dedicated quota
      response (403), or a failure with a status and a message. */
  datatype SearchResponse =
    | Found(videos: seq<VideoResult>, total: nat, outcome: Aggregator.Outcome)
    | QuotaExhausted
    | SearchFailed(status: int, message: string)

  /** The three files the routes touch. */
  datatype World = World(usage: Option<UsageCounter.UsageRecord>, history: SearchHistory.HistoryFile, log: RequestLog.LogFile)

  /** The text the quota check looks at: the API message, else the error's
      own message, else empty. */
  function QuotaText(f: Aggregator.Failure): string {
    StrOr(f.apiMessage, StrOr(Some(f.message), ""))
  }

  /** The route's catch block. */
  function ClassifyError(f: Aggregator.Failure): (r: SearchResponse)
    ensures r.QuotaExhausted? <==>
      (f.quotaExceeded || (f.status == Some(QuotaStatus) && (Contains(QuotaText(f), "quota") || Contains(QuotaText(f), "exceeded"))))
    ensures r.Found? == false
    ensures r.SearchFailed? ==> r.message != ""
    ensures r.SearchFailed? && f.status.Some? && f.status.value != 0 ==> r.status == f.status.value
    ensures r.SearchFailed? && (f.status.None? || f.status.value == 0) ==> r.status == FallbackStatus
    ensures r.SearchFailed? && Truthy(f.apiMessage) ==> r.message == f.apiMessage.value
    ensures r.SearchFailed? && !Truthy(f.apiMessage) && f.message != "" ==> r.message == f.message
    ensures r.SearchFailed? && !Truthy(f.apiMessage) && f.message == "" ==> r.message == UnknownError
  {
    var text := QuotaText(f);
    if (f.quotaExceeded || f.status == Some(QuotaStatus))
       && (f.quotaExceeded || Contains(text, "quota") || Contains(text, "exceeded")) then
      QuotaExhausted
    else
      SearchFailed(
        if f.status.Some? && f.status.value != 0 then f.status.value else FallbackStatus,
        StrOr(f.apiMessage, StrOr(Some(f.message), UnknownError)))
  }

  /** The route's searches are logged with source "web". */
  const WebSearch: Aggregator.LogOptions := Aggregator.LogOptions(true, Some(RequestLog.DefaultSource), None)

  /** The search the route runs for its parameters, defaults filled in. */
  function RouteSearch(up: Aggregator.Upstream, w: World, clock: Clock, params: SearchParams): Aggregator.SearchRun {
    Aggregator.SearchVideos(up, w.usage, w.log, clock, params.query.GetOr(DefaultQuery),
                            params.maxResults.GetOr(DefaultMaxResults), params.minViewCount.GetOr(DefaultMinViewCount), WebSearch)
  }

  /** `GET /api/search`: run the search (logged, source "web"), save its
      results to the history unless on the serverless platform, answer. */
  function SearchRoute(up: Aggregator.Upstream, w: World, clock: Clock, deploy: Deployment, params: SearchParams): (r: (SearchResponse, World))
    ensures r.0.Found? ==> r.0.total == |r.0.videos|
    ensures !r.0.Found? ==> r.1.history == w.history
    ensures OnVercel(deploy) ==> r.1.history == w.history
    ensures var run := RouteSearch(up, w, clock, params);
      && (r.0.Found? <==> run.result.Ok?)
      && (run.result.Ok? ==> r.0.videos == run.result.value.videos && r.0.outcome == run.result.value)
      && (run.result.Err? ==> r.0 == ClassifyError(run.result.error))
      && r.1.usage == run.usage && r.1.log == run.log
    ensures var run := RouteSearch(up, w, clock, params);
      run.result.Ok? && !OnVercel(deploy) ==>
        r.1.history == Some(SearchHistory.SaveSearchHistory(w.history, clock.millis, clock.iso, params.query.GetOr(DefaultQuery),
                                                            run.result.value.videos, params.maxResults.GetOr(DefaultMaxResults)))
  {
    var query := params.query.GetOr(DefaultQuery);
    var maxResults := params.maxResults.GetOr(DefaultMaxResults);
    var run := RouteSearch(up, w, clock, params);
    match run.result
    case Ok(o) =>
      var history :=
        if OnVercel(deploy) then w.history
        else Some(SearchHistory.SaveSearchHistory(w.history, clock.millis, clock.iso, query, o.videos, maxResults));
      (Found(o.videos, |o.videos|, o), World(run.usage, history, run.log))
    case Err(f) =>
      (ClassifyError(f), World(run.usage, w.history, run.log))
  }

  /** One row of the history list: a record without its videos. */
  datatype HistorySummary = HistorySummary(id: string, query: string, timestamp: string, resultCount: nat, maxResults: nat)

  function Summarize(rec: SearchHistory.HistoryRecord): HistorySummary {
    HistorySummary(rec.id, rec.query, rec.timestamp, rec.resultCount, rec.maxResults)
  }

  /** `GET /api/history`: how many records there are, and the newest
      `limit` of them without their videos. */
  function HistoryList(file: SearchHistory.HistoryFile, limit: Option<nat>): (r: (nat, seq<HistorySummary>))
    ensures var h := SearchHistory.ReadSearchHistory(file);
      && r.0 == |h|
      && |r.1| == Min(limit.GetOr(DefaultHistoryLimit), |h|)
      && forall i :: 0 <= i < |r.1| ==> r.1[i] == Summarize(h[i])
  {
    var h := SearchHistory.ReadSearchHistory(file);
    var shown := Take(h, limit.GetOr(DefaultHistoryLimit));
    (|h|, seq(|shown|, i requires 0 <= i < |shown| => Summarize(shown[i])))
  }

  /** The answer of the history replay: the stored videos and the stored
      count, query and timestamp, or 404. */
  datatype ReplayResponse =
    | Replayed(videos: seq<VideoResult>, total: nat, query: string, timestamp: string)
    | NoRecord

  /** The answer for a lookup's outcome: 404 when nothing was found. */
  function ReplayOf(found: Option<SearchHistory.HistoryRecord>): ReplayResponse {
    match found
    case None => NoRecord
    case Some(rec) => Replayed(rec.videos, rec.resultCount, rec.query, rec.timestamp)
  }

  /** Whether the route looks up by id: the id is present, non-empty and
      not the text "undefined". */
  predicate UsableId(id: Option<string>) {
    Truthy(id) && id.value != UndefinedId
  }

  /** `GET /api/history/:id`: look up by id unless the id is missing or the
      text "undefined", else by query if one is given. */
  function HistoryReplay(file: SearchHistory.HistoryFile, id: Option<string>, query: Option<string>, fold: string -> string): (r: ReplayResponse)
    ensures UsableId(id) ==>
      && (r.NoRecord? <==> SearchHistory.GetSearchHistoryById(file, id.value).None?)
      && r == ReplayOf(SearchHistory.GetSearchHistoryById(file, id.value))
    ensures !UsableId(id) && Truthy(query) ==>
      && (r.NoRecord? <==> SearchHistory.GetSearchHistoryByQuery(file, query.value, fold).None?)
      && r == ReplayOf(SearchHistory.GetSearchHistoryByQuery(file, query.value, fold))
    ensures !UsableId(id) && !Truthy(query) ==> r.NoRecord?
    ensures r.Replayed? ==>
      (exists rec :: rec in SearchHistory.ReadSearchHistory(file) && r == Replayed(rec.videos, rec.resultCount, rec.query, rec.timestamp))
  {
    var found :=
      if UsableId(id) then SearchHistory.GetSearchHistoryById(file, id.value)
      else if Truthy(query) then SearchHistory.GetSearchHistoryByQuery(file, query.value, fold)
      else None;
    ReplayOf(found)
  }

  // ---- properties ------------------------------------------------------------

  /** The pre-flight refusal is not answered with the dedicated quota
      response: it carries no status and no tag, so the route answers 500
      with the refusal's own message. */
  lemma PreflightAnswers500(up: Aggregator.Upstream, w: World, clock: Clock, deploy: Deployment, params: SearchParams)
    requires Aggregator.TodayBefore(w.usage, clock) >= Aggregator.QuotaGuard
    ensures SearchRoute(up, w, clock, deploy, params).0
      == SearchFailed(FallbackStatus, Aggregator.PreflightMessage(Aggregator.TodayBefore(w.usage, clock)))
    ensures SearchRoute(up, w, clock, deploy, params).1.history == w.history
    ensures SearchRoute(up, w, clock, deploy, params).1.log == w.log
  {
    var today := Aggregator.TodayBefore(w.usage, clock);
    var f := Aggregator.PreflightFailure(today);
    assert Aggregator.PreflightMessage(today) != "";
    assert ClassifyError(f) == SearchFailed(FallbackStatus, Aggregator.PreflightMessage(today));
  }

  /** An upstream 403 whose API message mentions "quota" reaches the client
      as the dedicated quota response, whichever call it came from. */
  lemma UpstreamQuotaAnswers403(e: Aggregator.UpstreamError)
    requires e.status == Some(QuotaStatus)
    requires e.apiMessage.Some? && Contains(e.apiMessage.value, "quota")
    ensures Aggregator.Tag(e).quotaExceeded
    ensures ClassifyError(Aggregator.Tag(e)) == QuotaExhausted
  {
  }

  /** Any other upstream failure keeps its own status (500 without one) and
      its API message. */
  lemma UpstreamFailureKeepsStatus(e: Aggregator.UpstreamError)
    requires e.status != Some(QuotaStatus)
    requires Truthy(e.apiMessage)
    ensures ClassifyError(Aggregator.Tag(e))
      == SearchFailed(if e.status.Some? && e.status.value != 0 then e.status.value else FallbackStatus, e.apiMessage.value)
  {
  }

  /** A successful search on the local server is saved in front of the
      history, and replaying it by its id gives back exactly the videos the
      search answered with. On the serverless platform nothing is saved. */
  lemma SearchThenReplay(up: Aggregator.Upstream, w: World, clock: Clock, deploy: Deployment, params: SearchParams, fold: string -> string)
    ensures var (resp, w') := SearchRoute(up, w, clock, deploy, params);
      resp.Found? && !OnVercel(deploy) && clock.millis != "" && clock.millis != UndefinedId ==>
        HistoryReplay(w'.history, Some(clock.millis), None, fold)
          == Replayed(resp.videos, resp.total, params.query.GetOr(DefaultQuery), clock.iso)
  {
    var (resp, w') := SearchRoute(up, w, clock, deploy, params);
    if resp.Found? && !OnVercel(deploy) && clock.millis != "" && clock.millis != UndefinedId {
      var query := params.query.GetOr(DefaultQuery);
      var maxResults := params.maxResults.GetOr(DefaultMaxResults);
      assert w'.history == Some(SearchHistory.SaveSearchHistory(w.history, clock.millis, clock.iso, query, resp.videos, maxResults));
      SearchHistory.SaveThenGetById(w.history, clock.millis, clock.iso, query, resp.videos, maxResults);
      assert UsableId(Some(clock.millis));
    }
  }

  /** After a successful search on the local server, replaying without an
      id but with any spelling of the query that folds to the same text
      returns that search's videos. */
  lemma SearchThenReplayByQuery(up: Aggregator.Upstream, w: World, clock: Clock, deploy: Deployment, params: SearchParams,
                                asked: string, fold: string -> string)
    requires asked != "" && fold(asked) == fold(params.query.GetOr(DefaultQuery))
    ensures var (resp, w') := SearchRoute(up, w, clock, deploy, params);
      resp.Found? && !OnVercel(deploy) ==>
        HistoryReplay(w'.history, None, Some(asked), fold)
          == Replayed(resp.videos, resp.total, params.query.GetOr(DefaultQuery), clock.iso)
  {
    var (resp, w') := SearchRoute(up, w, clock, deploy, params);
    if resp.Found? && !OnVercel(deploy) {
      var query := params.query.GetOr(DefaultQuery);
      var maxResults := params.maxResults.GetOr(DefaultMaxResults);
      assert w'.history == Some(SearchHistory.SaveSearchHistory(w.history, clock.millis, clock.iso, query, resp.videos, maxResults));
      SearchHistory.SaveThenGetByQuery(w.history, clock.millis, clock.iso, query, resp.videos, maxResults, asked, fold);
    }
  }

  /** A search answered on the serverless platform leaves the history file
      as it was; on the local server the history grows by one record, up to
      its cap. */
  lemma HistorySavedOnlyOnServer(up: Aggregator.Upstream, w: World, clock: Clock, deploy: Deployment, params: SearchParams)
    ensures var (resp, w') := SearchRoute(up, w, clock, deploy, params);
      && (OnVercel(deploy) ==> w'.history == w.history)
      && (resp.Found? && !OnVercel(deploy) ==>
            |SearchHistory.ReadSearchHistory(w'.history)|
              == Min(|SearchHistory.ReadSearchHistory(w.history)| + 1, SearchHistory.HistoryCap))
  {
  }

  /** The history list's total counts every record, and its rows are the
      newest records, in order. */
  lemma HistoryListAfterSave(file: SearchHistory.HistoryFile, id: string, timestamp: string, query: string,
                             videos: seq<VideoResult>, maxResults: nat)
    ensures var saved := Some(SearchHistory.SaveSearchHistory(file, id, timestamp, query, videos, maxResults));
      var (total, rows) := HistoryList(saved, None);
      && total == Min(|SearchHistory.ReadSearchHistory(file)| + 1, SearchHistory.HistoryCap)
      && rows[0] == HistorySummary(id, query, timestamp, |videos|, maxResults)
  {
  }
}

=== FILE: search_history.dfy ===
/** The search history store of `searchHistory.js` (and its copy
    `api/searchHistory.js`): a bounded list of past searches, newest first.
    The backing file is `Option<seq<HistoryRecord>>` (None when missing or
    unparseable); the record id and timestamp come from the clock and are
    parameters; `fold` is the case mapping `toLowerCase` applies. */
module SearchHistory {
  import opened Base
  import opened Videos

  /** How many searches the store keeps. */
  const HistoryCap: nat := 100

  datatype HistoryRecord = HistoryRecord(
    id: string,
    query: string,
    timestamp: string,
    resultCount: nat,
    maxResults: nat,
    videos: seq<VideoResult>)

  type HistoryFile = Option<seq<HistoryRecord>>

  /** `readSearchHistory`: the stored list, or empty. */
  function ReadSearchHistory(file: HistoryFile): (r: seq<HistoryRecord>)
    ensures file.None? ==> r == []
    ensures file.Some? ==> r == file.value
  {
    file.GetOr([])
  }

  /** The field-wise copy `saveSearchHistory` stores for each video. */
  function CopyVideo(v: VideoResult): (r: VideoResult)
    ensures r == v
  {
    VideoResult(v.id, v.title, v.channelTitle, v.viewCount, v.likeCount, v.publishedAt, v.thumbnail, v.videoUrl)
  }

  /** The record `saveSearchHistory` builds for one search. */
  function NewRecord(id: string, timestamp: string, query: string, videos: seq<VideoResult>, maxResults: nat): (r: HistoryRecord)
    ensures r.resultCount == |videos| && r.videos == videos
    ensures r.id == id && r.query == query && r.timestamp == timestamp && r.maxResults == maxResults
  {
    HistoryRecord(id, query, timestamp, |videos|, maxResults, seq(|videos|, i requires 0 <= i < |videos| => CopyVideo(videos[i])))
  }

  /** `saveSearchHistory`: the list written back after inserting a search at
      the front and truncating to `HistoryCap`. */
  function SaveSearchHistory(file: HistoryFile, id: string, timestamp: string, query: string, videos: seq<VideoResult>, maxResults: nat): (r: seq<HistoryRecord>)
    ensures var h := ReadSearchHistory(file);
      && |r| == Min(|h| + 1, HistoryCap)
      && r[0] == NewRecord(id, timestamp, query, videos, maxResults)
      && r[1..] == h[..|r| - 1]
  {
    Take([NewRecord(id, timestamp, query, videos, maxResults)] + ReadSearchHistory(file), HistoryCap)
  }

  /** `getSearchHistoryById`: the newest record with exactly this id. */
  function GetSearchHistoryById(file: HistoryFile, id: string): (r: Option<HistoryRecord>)
    ensures var h := ReadSearchHistory(file);
      && (r.None? <==> forall i :: 0 <= i < |h| ==> h[i].id != id)
      && (r.Some? ==> exists i :: 0 <= i < |h| && h[i] == r.value && h[i].id == id && forall j :: 0 <= j < i ==> h[j].id != id)
  {
    Find(ReadSearchHistory(file), (rec: HistoryRecord) => rec.id == id)
  }

  /** `getSearchHistoryByQuery`: the newest record whose query equals `query`
      after case folding both. */
  function GetSearchHistoryByQuery(file: HistoryFile, query: string, fold: string -> string): (r: Option<HistoryRecord>)
    ensures var h := ReadSearchHistory(file);
      && (r.None? <==> forall i :: 0 <= i < |h| ==> fold(h[i].query) != fold(query))
      && (r.Some? ==> exists i :: 0 <= i < |h| && h[i] == r.value && fold(h[i].query) == fold(query)
                                && forall j :: 0 <= j < i ==> fold(h[j].query) != fold(query))
  {
    Find(ReadSearchHistory(file), (rec: HistoryRecord) => fold(rec.query) == fold(query))
  }

  /** `getRecentSearchHistory`: the newest `limit` records. */
  function GetRecentSearchHistory(file: HistoryFile, limit: nat): (r: seq<HistoryRecord>)
    ensures var h := ReadSearchHistory(file);
      |r| == Min(limit, |h|) && r == h[..|r|]
  {
    Take(ReadSearchHistory(file), limit)
  }

  /** `clearSearchHistory`: the file is removed. */
  function ClearSearchHistory(): (file: HistoryFile)
    ensures ReadSearchHistory(file) == []
  {
    None
  }

  /** Inserting never grows the store beyond its cap. */
  lemma SaveBounded(file: HistoryFile, id: string, timestamp: string, query: string, videos: seq<VideoResult>, maxResults: nat)
    ensures |SaveSearchHistory(file, id, timestamp, query, videos, maxResults)| <= HistoryCap
  {
  }

  /** Replay round trip: right after a save, looking up the new id gives back
      the saved record with exactly the videos that were passed in, even if
      an older record carries the same id. */
  lemma {:induction false} SaveThenGetById(file: HistoryFile, id: string, timestamp: string, query: string, videos: seq<VideoResult>, maxResults: nat)
    ensures var saved := Some(SaveSearchHistory(file, id, timestamp, query, videos, maxResults));
      && GetSearchHistoryById(saved, id) == Some(NewRecord(id, timestamp, query, videos, maxResults))
      && GetSearchHistoryById(saved, id).value.videos == videos
  {
    var saved := SaveSearchHistory(file, id, timestamp, query, videos, maxResults);
    assert saved[0].id == id;
  }

  /** Right after a save, a lookup by any spelling of the same query that
      folds to the same string finds the new record. */
  lemma {:induction false} SaveThenGetByQuery(file: HistoryFile, id: string, timestamp: string, query: string, videos: seq<VideoResult>, maxResults: nat, asked: string, fold: string -> string)
    requires fold(asked) == fold(query)
    ensures GetSearchHistoryByQuery(Some(SaveSearchHistory(file, id, timestamp, query, videos, maxResults)), asked, fold)
            == Some(NewRecord(id, timestamp, query, videos, maxResults))
  {
    var saved := SaveSearchHistory(file, id, timestamp, query, videos, maxResults);
    assert saved[0].query == query;
  }

  /** While the store is below its cap, a save does not change what a lookup
      of any other id finds. */
  lemma {:induction false} SaveKeepsOtherIds(file: HistoryFile, id: string, timestamp: string, query: string, videos: seq<VideoResult>, maxResults: nat, other: string)
    requires |ReadSearchHistory(file)| < HistoryCap
    requires other != id
    ensures GetSearchHistoryById(Some(SaveSearchHistory(file, id, timestamp, query, videos, maxResults)), other)
            == GetSearchHistoryById(file, other)
  {
    var h := ReadSearchHistory(file);
    var saved := SaveSearchHistory(file, id, timestamp, query, videos, maxResults);
    var p := (rec: HistoryRecord) => rec.id == other;
    assert saved == [saved[0]] + h;
    assert saved[1..] == h;
    assert !p(saved[0]);
    assert FindFirst(saved, p) == 1 + FindFirst(h, p);
  }

  /** The newest `limit` records after a save are the new record followed by
      the newest `limit - 1` records from before. */
  lemma {:induction false} RecentAfterSave(file: HistoryFile, id: string, timestamp: string, query: string, videos: seq<VideoResult>, maxResults: nat, limit: nat)
    requires 1 <= limit <= HistoryCap
    ensures GetRecentSearchHistory(Some(SaveSearchHistory(file, id, timestamp, query, videos, maxResults)), limit)
            == [NewRecord(id, timestamp, query, videos, maxResults)] + GetRecentSearchHistory(file, limit - 1)
  {
    var h := ReadSearchHistory(file);
    var saved := SaveSearchHistory(file, id, timestamp, query, videos, maxResults);
    var r := GetRecentSearchHistory(Some(saved), limit);
    var e := [NewRecord(id, timestamp, query, videos, maxResults)] + GetRecentSearchHistory(file, limit - 1);
    assert |r| == |e|;
    forall i | 0 <= i < |r|
      ensures r[i] == e[i]
    {
      if i > 0 {
        assert r[i] == saved[1..][i - 1];
      }
    }
  }

  /** After clearing, nothing is found. */
  lemma ClearThenLookup(id: string, query: string, fold: string -> string)
    ensures GetSearchHistoryById(ClearSearchHistory(), id).None?
    ensures GetSearchHistoryByQuery(ClearSearchHistory(), query, fold).None?
    ensures GetRecentSearchHistory(ClearSearchHistory(), HistoryCap) == []
  {
  }
}

=== FILE: sorting.dfy ===
/** Stable sorting by a natural-number key, largest key first.

    Both sorts in the modelled code are of this kind: search results by view
    count (`sort((a, b) => b.viewCount - a.viewCount)`) and the query tally by
    count (`sort((a, b) => b[1] - a[1])`). JavaScript's `Array.prototype.sort`
    is stable, so elements with equal keys keep their original order. */
module Sorting {

  /** `s` is non-increasing under `key`. */
  predicate Descending<T>(s: seq<T>, key: T -> nat) {
    forall i, j :: 0 <= i < j < |s| ==> key(s[i]) >= key(s[j])
  }

  /** The elements of `s` whose key is `k`, in their order in `s`. */
  function WithKey<T>(s: seq<T>, key: T -> nat, k: nat): seq<T> {
    if |s| == 0 then []
    else (if key(s[0]) == k then [s[0]] else []) + WithKey(s[1..], key, k)
  }

  /** Places `x` in front of the first element whose key is not larger. */
  function Insert<T>(x: T, s: seq<T>, key: T -> nat): (r: seq<T>)
    ensures multiset(r) == multiset(s) + multiset{x}
    ensures |r| == |s| + 1
    ensures r[0] == x || (|s| > 0 && r[0] == s[0])
  {
    if |s| == 0 || key(s[0]) <= key(x) then
      [x] + s
    else
      assert s == [s[0]] + s[1..];
      [s[0]] + Insert(x, s[1..], key)
  }

  /** Inserting into a descending sequence keeps it descending. */
  lemma {:induction false} InsertDescending<T>(x: T, s: seq<T>, key: T -> nat)
    requires Descending(s, key)
    ensures Descending(Insert(x, s, key), key)
  {
    if |s| > 0 && key(s[0]) > key(x) {
      var rest := Insert(x, s[1..], key);
      InsertDescending(x, s[1..], key);
      assert key(s[0]) >= key(rest[0]);
      assert Insert(x, s, key) == [s[0]] + rest;
    }
  }

  /** Stable insertion sort, largest key first. */
  function SortDesc<T>(s: seq<T>, key: T -> nat): (r: seq<T>)
    ensures multiset(r) == multiset(s)
    ensures |r| == |s|
    ensures Descending(r, key)
  {
    if |s| == 0 then []
    else
      assert s == [s[0]] + s[1..];
      InsertDescending(s[0], SortDesc(s[1..], key), key);
      Insert(s[0], SortDesc(s[1..], key), key)
  }

  /** Inserting `x` puts it ahead of every element that shares its key. */
  lemma {:induction false} WithKeyInsert<T>(x: T, s: seq<T>, key: T -> nat, k: nat)
    ensures WithKey(Insert(x, s, key), key, k) == (if key(x) == k then [x] else []) + WithKey(s, key, k)
  {
    if |s| == 0 || key(s[0]) <= key(x) {
      assert ([x] + s)[1..] == s;
    } else {
      var rest := Insert(x, s[1..], key);
      WithKeyInsert(x, s[1..], key, k);
      assert ([s[0]] + rest)[1..] == rest;
    }
  }

  /** Stability: for every key, the elements carrying it appear in the sorted
      result in exactly their original order. */
  lemma {:induction false} SortStable<T>(s: seq<T>, key: T -> nat, k: nat)
    ensures WithKey(SortDesc(s, key), key, k) == WithKey(s, key, k)
  {
    if |s| > 0 {
      SortStable(s[1..], key, k);
      WithKeyInsert(s[0], SortDesc(s[1..], key), key, k);
    }
  }

  /** The first element of a non-empty descending sequence has the largest key. */
  lemma HeadIsMaximal<T>(s: seq<T>, key: T -> nat)
    requires Descending(s, key) && |s| > 0
    ensures forall x :: x in s ==> key(x) <= key(s[0])
  {
    forall x | x in s
      ensures key(x) <= key(s[0])
    {
      var j :| 0 <= j < |s| && s[j] == x;
      if j > 0 {
        assert key(s[0]) >= key(s[j]);
      }
    }
  }
}

=== FILE: usage_counter.dfy ===
/** The usage counter of `api/apiStats.js`: a persisted record of the total
    and per-day number of upstream calls plus a bounded window of recent
    call records. The backing file is `Option<UsageRecord>` (None when the
    file is missing or unreadable), the current date is a parameter. */
module UsageCounter {
  import opened Base

  /** The upstream's free daily allowance in quota units. */
  const DailyQuota: nat := 10000
  /** How many call records the file keeps. */
  const RequestCap: nat := 100
  /** How many call records a snapshot shows. */
  const RecentWindow: nat := 20

  /** The parameters recorded with a call: a "search" page request (with the
      page token it sent, or "first") or a "videos" detail request. */
  datatype Endpoint =
    | SearchCall(query: string, maxResults: nat, pageToken: string)
    | VideosCall(videoCount: nat)

  datatype RequestEntry = RequestEntry(timestamp: string, endpoint: Endpoint)

  datatype UsageRecord = UsageRecord(total: nat, today: nat, todayDate: string, requests: seq<RequestEntry>)

  /** What `getStats` hands out. */
  datatype Snapshot = Snapshot(
    totalRequests: nat,
    todayRequests: nat,
    todayDate: string,
    recentRequests: seq<RequestEntry>,
    remainingEstimate: nat)

  /** A snapshot together with the file as `getStats` leaves it. */
  datatype StatsRead = StatsRead(snapshot: Snapshot, file: Option<UsageRecord>)

  /** The file never holds more than `RequestCap` call records. */
  predicate Bounded(file: Option<UsageRecord>) {
    file.None? || |file.value.requests| <= RequestCap
  }

  /** `readApiStats`: the stored record, or a zeroed record dated today. */
  function ReadApiStats(file: Option<UsageRecord>, date: string): UsageRecord {
    file.GetOr(UsageRecord(0, 0, date, []))
  }

  /** `resetDailyCounterIfNeeded`: the lazy day rollover. */
  function ResetDailyCounterIfNeeded(s: UsageRecord, date: string): (r: UsageRecord)
    ensures r.todayDate == date
    ensures r.total == s.total && r.requests == s.requests
    ensures s.todayDate == date ==> r == s
    ensures s.todayDate != date ==> r.today == 0
  {
    if s.todayDate != date then s.(today := 0, todayDate := date) else s
  }

  /** `recordApiRequest`: read, roll over, count the call, append its record
      and drop the oldest record once there are more than `RequestCap`. */
  function RecordApiRequest(file: Option<UsageRecord>, date: string, timestamp: string, endpoint: Endpoint): (r: UsageRecord)
    ensures var s := ReadApiStats(file, date);
      && r.total == s.total + 1
      && r.today == (if s.todayDate == date then s.today else 0) + 1
      && r.todayDate == date
      && (|s.requests| < RequestCap ==> r.requests == s.requests + [RequestEntry(timestamp, endpoint)])
      && (|s.requests| >= RequestCap ==> r.requests == s.requests[1..] + [RequestEntry(timestamp, endpoint)])
    ensures Bounded(file) ==> Bounded(Some(r))
  {
    var s := ResetDailyCounterIfNeeded(ReadApiStats(file, date), date);
    var requests := s.requests + [RequestEntry(timestamp, endpoint)];
    s.(total := s.total + 1, today := s.today + 1,
       requests := if |requests| > RequestCap then requests[1..] else requests)
  }

  /** `getStats`: read, roll over (persisting the rollover when it changed
      anything) and summarise. */
  function GetStats(file: Option<UsageRecord>, date: string): (r: StatsRead)
    ensures var s := ReadApiStats(file, date);
      && r.snapshot.totalRequests == s.total
      && r.snapshot.todayRequests == (if s.todayDate == date then s.today else 0)
      && r.snapshot.todayDate == date
      && |r.snapshot.recentRequests| == Min(RecentWindow, |s.requests|)
      && r.snapshot.recentRequests == s.requests[|s.requests| - |r.snapshot.recentRequests|..]
      && r.snapshot.remainingEstimate + r.snapshot.todayRequests >= DailyQuota
      && (r.snapshot.todayRequests <= DailyQuota ==> r.snapshot.remainingEstimate + r.snapshot.todayRequests == DailyQuota)
      && (r.snapshot.todayRequests >= DailyQuota ==> r.snapshot.remainingEstimate == 0)
    ensures ReadApiStats(r.file, date) == ResetDailyCounterIfNeeded(ReadApiStats(file, date), date)
    ensures Bounded(file) ==> Bounded(r.file)
  {
    var s := ResetDailyCounterIfNeeded(ReadApiStats(file, date), date);
    var file' := if file.Some? && file.value.todayDate != date then Some(s) else file;
    StatsRead(
      Snapshot(s.total, s.today, s.todayDate, Last(s.requests, RecentWindow), Max(0, DailyQuota - s.today)),
      file')
  }

  /** The file after recording `calls`, one `recordApiRequest` each, in order. */
  function RecordCalls(file: Option<UsageRecord>, date: string, timestamp: string, calls: seq<Endpoint>): Option<UsageRecord>
    decreases |calls|
  {
    if |calls| == 0 then file
    else RecordCalls(Some(RecordApiRequest(file, date, timestamp, calls[0])), date, timestamp, calls[1..])
  }

  /** Every recorded call adds exactly one to the total and to today's count
      (after a rollover to `date`), and the record window stays bounded. */
  lemma {:induction false} RecordCallsCounts(file: Option<UsageRecord>, date: string, timestamp: string, calls: seq<Endpoint>)
    ensures var s := ResetDailyCounterIfNeeded(ReadApiStats(file, date), date);
      var r := ReadApiStats(RecordCalls(file, date, timestamp, calls), date);
      && r.total == s.total + |calls|
      && (|calls| > 0 ==> r.today == s.today + |calls| && r.todayDate == date)
    ensures Bounded(file) ==> Bounded(RecordCalls(file, date, timestamp, calls))
    decreases |calls|
  {
    if |calls| > 0 {
      var next := Some(RecordApiRequest(file, date, timestamp, calls[0]));
      RecordCallsCounts(next, date, timestamp, calls[1..]);
    }
  }

  /** The call records for `calls`, all stamped `timestamp`, in order. */
  function Entries(timestamp: string, calls: seq<Endpoint>): (r: seq<RequestEntry>)
    ensures |r| == |calls|
    ensures forall i :: 0 <= i < |calls| ==> r[i] == RequestEntry(timestamp, calls[i])
  {
    if |calls| == 0 then [] else [RequestEntry(timestamp, calls[0])] + Entries(timestamp, calls[1..])
  }

  /** Keeping the last `n` and then appending and keeping the last `n`
      again is the same as appending first. */
  lemma LastAppend<T>(x: seq<T>, y: seq<T>, n: nat)
    ensures Last(Last(x, n) + y, n) == Last(x + y, n)
  {
    var z := Last(x, n) + y;
    var w := x + y;
    var k := Min(n, |w|);
    assert |z| >= k;
    forall j | |z| - k <= j < |z|
      ensures z[j] == w[j + |w| - |z|]
    {
      if j < |Last(x, n)| {
        assert z[j] == x[|x| - |Last(x, n)| + j];
      } else {
        assert z[j] == y[j - |Last(x, n)|];
      }
    }
    assert Last(z, n) == Last(w, n);
  }

  /** One recorded call appends its record to a bounded window and keeps
      the newest `RequestCap`. */
  lemma RecordOneWindow(file: Option<UsageRecord>, date: string, timestamp: string, endpoint: Endpoint)
    requires Bounded(file)
    ensures RecordApiRequest(file, date, timestamp, endpoint).requests
      == Last(ReadApiStats(file, date).requests + [RequestEntry(timestamp, endpoint)], RequestCap)
  {
  }

  /** Two window steps in a row are one step over the joined records. */
  lemma WindowStep(before: seq<RequestEntry>, e: RequestEntry, rest: seq<RequestEntry>, next: seq<RequestEntry>, after: seq<RequestEntry>)
    requires next == Last(before + [e], RequestCap)
    requires after == Last(next + rest, RequestCap)
    ensures after == Last(before + ([e] + rest), RequestCap)
  {
    LastAppend(before + [e], rest, RequestCap);
    assert before + [e] + rest == before + ([e] + rest);
  }

  /** The record window after recording `calls` into a bounded file: the
      newest `RequestCap` of the old records followed by one record per
      call, in call order. */
  lemma {:induction false} RecordCallsWindow(file: Option<UsageRecord>, date: string, timestamp: string, calls: seq<Endpoint>)
    requires Bounded(file)
    ensures ReadApiStats(RecordCalls(file, date, timestamp, calls), date).requests
      == Last(ReadApiStats(file, date).requests + Entries(timestamp, calls), RequestCap)
    decreases |calls|
  {
    var before := ReadApiStats(file, date).requests;
    if |calls| == 0 {
      assert before + Entries(timestamp, calls) == before;
    } else {
      var next := RecordApiRequest(file, date, timestamp, calls[0]);
      RecordOneWindow(file, date, timestamp, calls[0]);
      RecordCallsWindow(Some(next), date, timestamp, calls[1..]);
      WindowStep(before, RequestEntry(timestamp, calls[0]), Entries(timestamp, calls[1..]), next.requests,
                 ReadApiStats(RecordCalls(Some(next), date, timestamp, calls[1..]), date).requests);
    }
  }

  /** Recording no calls leaves the file alone. */
  lemma RecordNoCalls(file: Option<UsageRecord>, date: string, timestamp: string)
    ensures RecordCalls(file, date, timestamp, []) == file
  {
  }

  /** The rollover is idempotent and never raises today's count. */
  lemma RolloverIdempotent(s: UsageRecord, date: string)
    ensures ResetDailyCounterIfNeeded(ResetDailyCounterIfNeeded(s, date), date) == ResetDailyCounterIfNeeded(s, date)
    ensures ResetDailyCounterIfNeeded(s, date).today <= s.today
  {
  }

  /** A missing or unreadable file reads as a fresh counter: nothing used,
      the whole quota left. */
  lemma FreshCounter(date: string)
    ensures GetStats(None, date).snapshot == Snapshot(0, 0, date, [], DailyQuota)
    ensures GetStats(None, date).file == None
  {
  }

  /** `getStats` never touches the total or the call records and changes
      today's count only by the rollover; reading twice gives the same view. */
  lemma GetStatsStable(file: Option<UsageRecord>, date: string)
    ensures var r := GetStats(file, date);
      && ReadApiStats(r.file, date).total == ReadApiStats(file, date).total
      && ReadApiStats(r.file, date).requests == ReadApiStats(file, date).requests
      && GetStats(r.file, date).snapshot == r.snapshot
  {
  }
}

=== FILE: videos.dfy ===
/** The video records that flow from the search aggregator into the history
    store and the request log. */
module Videos {
  import opened Base

  /** One search result as the aggregator returns it: the eight fields
      `searchVideos` maps each upstream item to. `thumbnail` is None when
      neither thumbnail URL was present. */
  datatype VideoResult = VideoResult(
    id: string,
    title: string,
    channelTitle: string,
    viewCount: nat,
    likeCount: nat,
    publishedAt: string,
    thumbnail: Option<string>,
    videoUrl: string)

  /** The three fields of the best video that go into the request log. */
  datatype TopVideo = TopVideo(id: string, title: string, viewCount: nat)

  /** Sort key of search results. */
  function ViewKey(v: VideoResult): nat {
    v.viewCount
  }
}
